=== FILE: README.md ===
# SingleServerKVStore in Dafny

This is a Dafny model of the core of a single-server key-value store. The server
checks a key's and a value's size. It writes through to an unbounded
backing store. It answers reads from a set-associative cache placed in front of that store.

- `CacheSet` (cache_set.dfy) models one shard of the cache: the `CacheSet`
  inner class of `KVCache.java`. A shard holds its keys in slot order. That order is the insertion order of the source's `LinkedHashMap`, which an overwrite does not change. Each entry
  has a value and a referenced flag, and a clock hand (`keyPtr`) points at a slot.
  A put into a full shard scans for a victim the way the source does. The
  module also defines a corrected second-chance scan, `PutSecondChance` (see Findings).
- `KVCache` (kv_cache.dfy) models the cache: `numSets` shards, with a key routed to
  shard `abs(hash(key)) % numSets`. The hash function is a parameter. A field
  of the model picks which scan a full shard runs: `AsWritten` or `SecondChance`.
- `KVStore` (kv_store.dfy) models the backing store as a `map<string, string>`,
  including the "does not exist" errors of `get` and `del`.
- `KVServer` (kv_server.dfy) models how `put`, `get` and `del` work together:
  - the size checks and their error texts;
  - write-through to the store, and filling the cache on a miss;
  - the order in which each operation takes and releases locks, as a trace of
    `Acquire`/`Release` events.

  An operation either returns (`Returns`) or, when the as-written scan cannot
  finish, spins forever (`Hangs`) while still holding the locks its trace
  ends with.
- `KVMessage` (kv_message.dfy) models the `KVMessage` schema:
  - the type whitelist;
  - the constructors' checks;
  - `toXML`'s completeness checks;
  - the socket constructor's checks on the root element, the type and the
    child elements.

  An XML document is modelled as the list of its elements, in document order.
  Each element has a tag, attributes and text. That list is what
  `getElementsByTagName` searches.

`Consistent` is the server invariant: every key the cache holds is in the store
with the same value. Put, get and del keep it, so a get never returns a stale value.

Behaviour of the code worth knowing, all of it modelled as written:
- The eviction scan never clears a flag (see Findings).
- Any put into a full shard evicts, an overwrite of a key already present included.
  The overwritten key keeps its slot, so the shard ends one entry short, unless it
  is itself the victim. In that case it is removed and re-inserted at the last slot,
  and the shard stays full.
- An overwrite replaces the entry, so its flag is cleared.
- `get` takes the shard's write lock first and the store's read lock only on a miss.
  `put` and `del` take the store's write lock first, so get takes the two locks in the opposite order.
  The model records this order (`GetMissLocksShardFirst`, `PutLocksStoreFirst`)
  but does not model interleavings.

## Model

| member | source | states |
|---|---|---|
| CacheSet.Empty | src/edu/berkeley/cs162/KVCache.java:119-124 | A new shard has no entries, its hand at 0, and is a valid shard for every capacity. |
| CacheSet.Scan | src/edu/berkeley/cs162/KVCache.java:88-99 | The victim scan stops at the first unreferenced slot found cyclically from the wrapped hand. It terminates whenever such a slot exists. |
| CacheSet.VictimUnique | src/edu/berkeley/cs162/KVCache.java:88-99 | The scan's stopping slot is unique: at most one slot is the first unreferenced one cyclically from a start point. |
| CacheSet.Victim | src/edu/berkeley/cs162/KVCache.java:84-99 | In a full shard with an unreferenced entry, the victim is a slot within capacity. It is the first unreferenced one from the hand. |
| CacheSet.Put | src/edu/berkeley/cs162/KVCache.java:83-102 | The shard stays valid within capacity, and the key maps to the value with its flag cleared. Below capacity, the hand stays put, every other entry is unchanged, and a new key takes the last slot while an existing key keeps its own. When full, exactly the victim's key is removed, the hand moves to the victim's slot, and every other entry keeps its value and flag. The surviving slots keep their order, and the key goes last unless it was already present and was not the victim. |
| CacheSet.Get | src/edu/berkeley/cs162/KVCache.java:104-111 | A hit returns the stored value and sets that entry's flag, changing nothing else. A miss returns nothing and leaves the shard unchanged. Either way no lookup changes. |
| CacheSet.Del | src/edu/berkeley/cs162/KVCache.java:113-117 | The key is gone and every other key keeps its entry. Its slot is removed, and the other slots keep their order. The hand is not moved. Deleting an absent key changes nothing. |
| CacheSet.NoReferencesEvictsAtHand | src/edu/berkeley/cs162/KVCache.java:84-99 | With no entry referenced, a full shard evicts exactly the slot under the hand. |
| CacheSet.ReferencedNeverEvicted | src/edu/berkeley/cs162/KVCache.java:88-99 | A referenced entry is never the victim: a put of another key leaves it, flag and value, as it was. |
| CacheSet.GetAllMarks | src/edu/berkeley/cs162/KVCache.java:104-111 | A sequence of gets sets the flag of every key it hits. It clears no flag, and it keeps the slots, the hand and the key set. |
| CacheSet.GetAllBlocksPut | src/edu/berkeley/cs162/KVCache.java:88-99 | Once every key of a full shard has been read, no put into it can finish. |
| CacheSet.ReadShardBlocksPut | src/edu/berkeley/cs162/KVCache.java:88-99 | Capacity 1, put "a", get "a": the as-written put cannot finish. The corrected put evicts "a". |
| CacheSet.ScanClearing | src/edu/berkeley/cs162/KVCache.java:88-99 | The corrected scan always terminates with a slot in range, and changes no key or value. When some entry is unreferenced, it stops where the as-written scan would. It clears exactly the flags of the slots it passes over, and every slot from the victim on keeps its entry. When every entry is referenced, it goes once round, clears every flag and stops at the hand's slot. |
| CacheSet.EvictClearing | src/edu/berkeley/cs162/KVCache.java:84-99 | The corrected eviction removes exactly the key of the slot the scan stops at and parks the hand there. That is the as-written victim whenever there is one, and the hand's slot otherwise. The other slots keep their order and values, and flags are only ever cleared. |
| CacheSet.EvictClearingFlags | src/edu/berkeley/cs162/KVCache.java:88-99 | After the corrected eviction, slot by slot: with an unreferenced entry present, exactly the slots the hand passed lose their flag and every other slot keeps its entry. With none, every remaining flag is cleared. |
| CacheSet.PutSecondChance | src/edu/berkeley/cs162/KVCache.java:83-102 | The corrected put always succeeds. Below capacity it is the as-written put. When full it removes exactly the key under the new hand and keeps every other value, and the slot order follows the as-written rule. If some entry was unreferenced, the hand stops at the as-written victim; only the passed-over slots lose their flag, and the rest keep theirs. If every entry was referenced, the hand's slot is evicted and every other flag is cleared. |
| CacheSet.SecondChanceAgreesWithPut | src/edu/berkeley/cs162/KVCache.java:83-102 | Whenever the as-written put finishes, the corrected one leaves the same slots, hand, keys and values. |
| KVCache.SetId | src/edu/berkeley/cs162/KVCache.java:232-234 | The shard number of a key is below the number of shards. |
| KVCache.New | src/edu/berkeley/cs162/KVCache.java:145-153 | The cache has `numSets` empty shards with their hands at 0. It is valid for every hash function when both sizes are positive. |
| KVCache.OnlyInOwnShard | src/edu/berkeley/cs162/KVCache.java:232-234 | A key is never held by a shard other than the one its hash selects. |
| KVCache.Get | src/edu/berkeley/cs162/KVCache.java:161-173 | The result is what the key's shard holds. A hit marks the entry, and no lookup or other shard changes. The key's shard becomes exactly what the shard's own get leaves, so its slots, hand and other flags are kept. |
| KVCache.Put | src/edu/berkeley/cs162/KVCache.java:184-195 | The put fails to finish exactly when the as-written scan runs on a full shard in which every entry is referenced. Otherwise the key maps to the value, other keys keep their value or are evicted, and other shards are untouched. The key's shard becomes exactly what the shard's put leaves: the as-written one or the corrected one, by the cache's policy. |
| KVCache.Del | src/edu/berkeley/cs162/KVCache.java:202-213 | The key is absent afterwards, and every other key's lookup and every other shard is unchanged. The key's shard becomes exactly what the shard's own del leaves, so the other slots keep their order, flags and hand. |
| KVStore.Empty | src/edu/berkeley/cs162/KVStore.java:73-75 | The reset store holds no key. |
| KVStore.Put | src/edu/berkeley/cs162/KVStore.java:77-86 | The key maps to the value and no other key changes. |
| KVStore.Get | src/edu/berkeley/cs162/KVStore.java:88-102 | It succeeds exactly when the key is present, with its value. Otherwise it fails with the "does not exist in store" text. |
| KVStore.Del | src/edu/berkeley/cs162/KVStore.java:104-117 | It succeeds exactly when the key is present, and then removes that key and only it. Otherwise it fails with the "does not exist in store" text. |
| KVStore.GetAfterPut | src/edu/berkeley/cs162/KVStore.java:77-102 | A put of valid sizes into a shard the scan can serve succeeds, and a get right after it returns the value put. |
| KVStore.GetAfterPutOther | src/edu/berkeley/cs162/KVStore.java:77-102 | A put does not change a get of another key. |
| KVStore.PutOverwrites | src/edu/berkeley/cs162/KVStore.java:77-86 | The second of two puts of a key wins. |
| KVStore.GetAfterDel | src/edu/berkeley/cs162/KVStore.java:88-117 | After a del, a get and a second del of the key both fail with the not-found text. |
| KVStore.DelUndoesPut | src/edu/berkeley/cs162/KVStore.java:77-117 | Deleting a freshly put new key restores the store. |
| KVServer.New | src/edu/berkeley/cs162/KVServer.java:60-65 | A new server has an empty store. When both sizes are positive it is valid and its cache is consistent with the store, for every hash function. |
| KVServer.CheckKey | src/edu/berkeley/cs162/KVServer.java:170-179 | A missing key fails with the format error. An empty key fails with the undersized error and one over 256 characters with the oversized error. Every other key passes. |
| KVServer.CheckValue | src/edu/berkeley/cs162/KVServer.java:181-190 | A missing value fails with the format error. An empty value fails with the undersized error and one over 256*1024 characters with the oversized error. Every other value passes. |
| KVServer.SizeBoundaries | src/edu/berkeley/cs162/KVServer.java:49-50 | Keys of length 256 and values of length 262144 pass; one character more fails. |
| KVServer.Put | src/edu/berkeley/cs162/KVServer.java:67-92 | Size errors return before any lock is taken, and leave the server as it was. A put that passes them writes the store, touching no other key, and then either returns success or hangs. It hangs exactly when the as-written scan meets a full shard of referenced entries. A hang holds the store write lock and the shard lock, with the store already written and the cache unchanged. A success caches the value, and any other key keeps its cached value or is evicted. |
| KVServer.Get | src/edu/berkeley/cs162/KVServer.java:94-131 | A hit answers the cached value. A miss that returns answers what the store's get answers, value or not-found error. A miss can hang only under the as-written scan, and then changes nothing. A get that returns leaves the store alone, and a successful one leaves the value cached. A hit leaves the cache exactly as the cache's get does, with the key's flag set. A get that returns changes no other key's cached value except by evicting it. |
| KVServer.Del | src/edu/berkeley/cs162/KVServer.java:133-158 | It always returns. It removes a stored key from the store and the cache, or fails with the store's not-found text and changes nothing. No other key's store entry or cached value changes. |
| KVServer.PutPreservesConsistency | src/edu/berkeley/cs162/KVServer.java:67-92 | A put that returns keeps every cached key in the store with the same value. |
| KVServer.GetPreservesConsistency | src/edu/berkeley/cs162/KVServer.java:94-131 | A get that returns keeps the cache consistent with the store. |
| KVServer.DelPreservesConsistency | src/edu/berkeley/cs162/KVServer.java:133-158 | A del keeps the cache consistent with the store. |
| KVServer.GetAnswersFromStore | src/edu/berkeley/cs162/KVServer.java:94-131 | On a consistent server, a get returns exactly what the store's get returns, value or error. |
| KVServer.GetAfterPut | src/edu/berkeley/cs162/KVServer.java:67-131 | A put of valid sizes into a shard the scan can serve succeeds, and a get right after it returns the value put. |
| KVServer.GetAfterDel | src/edu/berkeley/cs162/KVServer.java:94-158 | A del of a valid stored key succeeds, and a get right after it fails with the not-found text. |
| KVServer.PutSurvivesOtherPut | src/edu/berkeley/cs162/KVServer.java:67-131 | After a put of a key, a returning put of any other key leaves a get of the first key answering the value put. That holds even if the value was evicted. The get can only hang under the as-written scan. |
| KVServer.PutSurvivesOtherDel | src/edu/berkeley/cs162/KVServer.java:94-158 | After a put of a key, a del of any other key leaves a get of the first key answering the value put. |
| KVServer.GetHitSkipsStore | src/edu/berkeley/cs162/KVServer.java:102-123 | When the key is cached, get never takes the store lock and leaves the store as it was. |
| KVServer.GetMissFillsCache | src/edu/berkeley/cs162/KVServer.java:106-120 | On a miss for a stored key, the key is cached with its stored value afterwards. |
| KVServer.GetAbsentChangesNothing | src/edu/berkeley/cs162/KVServer.java:106-118 | A get of a key in neither the cache nor the store changes nothing. |
| KVServer.LocksReleasedInReverse | src/edu/berkeley/cs162/KVServer.java:67-158 | Every returning put, get and del releases each lock it took, innermost first. A hang is exactly a trace that is left unbalanced. |
| KVServer.PutLocksStoreFirst | src/edu/berkeley/cs162/KVServer.java:74-79 | `put` takes the shard's lock while holding the store's write lock, and never the reverse. A put that returns has exactly the nested trace: store acquired, shard acquired, shard released, store released. |
| KVServer.DelLocksStoreFirst | src/edu/berkeley/cs162/KVServer.java:139-144 | `del` takes the shard's lock while holding the store's write lock, and never the reverse. Its trace is exactly the nested one: store acquired, shard acquired, shard released, store released. |
| KVServer.GetMissLocksShardFirst | src/edu/berkeley/cs162/KVServer.java:102-112 | On a miss, `get` takes the store's read lock while holding the shard's lock, and never the reverse: the opposite nesting to put and del. Its trace opens with the shard acquired, the store's read lock acquired, then released. |
| KVServer.SecondChanceNeverHangs | src/edu/berkeley/cs162/KVServer.java:67-131 | With the corrected scan, no put or get hangs. |
| KVServer.ReadThenPutHangs | src/edu/berkeley/cs162/KVServer.java:67-92 | One shard of capacity 1, with put "a", get "a", put "b": the put hangs while holding the store write lock and the shard lock. |
| KVServer.ReadThenPutSecondChance | src/edu/berkeley/cs162/KVServer.java:67-92 | The same sequence with the corrected scan returns, and "b" replaces "a" in the cache. |
| KVMessage.ParseType | src/edu/berkeley/cs162/KVMessage.java:61-62 | A type string is accepted exactly when it is one of getreq, putreq, delreq and resp. |
| KVMessage.TypeNameParses | src/edu/berkeley/cs162/KVMessage.java:61-62 | The whitelist parses each type's name back to that type. |
| KVMessage.New | src/edu/berkeley/cs162/KVMessage.java:111-117 | A message of a listed type has no key, value or text. An unlisted type fails with the format error. |
| KVMessage.NewWithMessage | src/edu/berkeley/cs162/KVMessage.java:119-126 | Like `New`, and the message text is the one given. |
| KVMessage.ParseAttribute | src/edu/berkeley/cs162/KVMessage.java:202-208 | It succeeds exactly when the attribute at the index has the expected name, and then returns the value of attribute 0. Otherwise it fails with the format error. An index past the attributes is a separate failure. |
| KVMessage.ParseElement | src/edu/berkeley/cs162/KVMessage.java:210-218 | The text of the single element with the tag. The format error when there is none or more than one. |
| KVMessage.Encode | src/edu/berkeley/cs162/KVMessage.java:225-273 | A request encodes exactly when it has a key and, for a put, a value. A missing key fails with the no-key error and a missing put value with the no-value error. A response encodes exactly when it has a key and value and no message, or only a message; otherwise it fails with the not-enough-data error. The document has exactly one root. |
| KVMessage.EncodeIgnoresUnused | src/edu/berkeley/cs162/KVMessage.java:240-263 | Fields a message type does not use, such as a value or message on a get request, do not affect encoding. |
| KVMessage.Decode | src/edu/berkeley/cs162/KVMessage.java:151-182 | A decoded message has a typed root of its own type. A missing or repeated root, a first attribute not named `type` and an unlisted type each fail with the format error. A root without attributes fails with `NoAttributes`. |
| KVMessage.DecodeNeedsTypedRoot | src/edu/berkeley/cs162/KVMessage.java:151-160 | Decoding succeeds only on a document with exactly one root element carrying a listed type. Every document without such a root fails: with `NoAttributes` when the single root has no attributes, and otherwise with the format error. |
| KVMessage.DecodeRequest | src/edu/berkeley/cs162/KVMessage.java:163-168 | A request decodes to its type and the single Key text, plus the single Value text for a put request. |
| KVMessage.DecodeResponse | src/edu/berkeley/cs162/KVMessage.java:169-181 | A response with one Key, one Value and no Message decodes to that key and value text. A response with one Message and no Key or Value decodes to that message text. Anything else fails with the format error. |
| KVMessage.DecodeEncode | src/edu/berkeley/cs162/KVMessage.java:225-273 | Decoding an encoded message gives back the fields the encoder wrote. |
| KVMessage.RoundTrip | src/edu/berkeley/cs162/KVMessage.java:151-182 | For a well-formed message whose unused fields are empty, decode after encode is the identity. |
| KVMessage.DecodedEncodes | src/edu/berkeley/cs162/KVMessage.java:151-182 | Every message decoding produces encodes without error. |
| KVMessage.ErrorResponseRoundTrip | src/edu/berkeley/cs162/KVMessage.java:119-126 | An error response built from a text survives encode then decode with that text. |

## Left out

- Real concurrency. Locks appear only as a trace of acquire and release events per operation. Interleavings, blocking and deadlock between threads are not modelled. The opposite lock orders of get and put/del are recorded but not proved harmful or harmless.
- `AutoGrader` hooks, `System.out` logging and the store's artificial delays: these are side effects with no bearing on results.
- XML text, the DOM and SAX parsers, and the transformer: a document is an abstract list of elements. The "unparseable message", "Network Error" and "Unknown Error" paths of the socket constructor and `sendMessage` come from the parser or the network, and are not modelled.
- `KVCache.toXML`, `KVStore.toXML`, `dumpToFile` and `restoreFromFile`: serialisation and file I/O outside the core.
- `Client.java` and `Server.java`: socket plumbing around the server.
- `String.hashCode` and `Math.abs(Integer.MIN_VALUE)`: the hash is a parameter and `abs` is taken on unbounded integers, so the one negative shard number Java can produce is not modelled.
- String length is the length of a `seq<char>`, not the UTF-16 length Java counts.
- Degenerate sizes. `KVCache.Valid` requires a positive number of shards and a positive capacity:
  - with zero shards, every operation throws in `getSetId`;
  - with zero capacity, get and del run but every put throws when it reads the first slot of the empty key array;
  - negative sizes are excluded by the `nat` types. With a negative capacity the source never evicts, and a shard grows without bound.
- Null values: the server never stores one, so the store's branch treating a null value as absent is not modelled.
- The "Key Does Not Exist" error of `getFromStore` (KVServer.java:160-168) cannot be reached: the store's own get throws first. The model returns the store's error.
- The unused `KVServer.unlock` helper, the no-argument `SetEntry` constructor and the accessors are not modelled.
- KVServer.Put: a hang is a final state. What the spinning thread holds is given by its trace, and the consistency invariant is not claimed for it.
- KVMessage.ParseAttribute: an index past the attributes fails with a separate error that stands for the source's null dereference. `Decode` passes index 0, as the source's only call site does.

## Findings

| source | as written | input that shows it | evidently intended | confidence | as-written member | corrected member |
|---|---|---|---|---|---|---|
| src/edu/berkeley/cs162/KVCache.java:88-99 | The eviction scan skips referenced entries but never clears their flags, and only a put resets a flag. A full shard whose entries have all been read makes `put` loop forever, holding the store write lock and the shard lock. | One shard of capacity 1: put("a","1"), get("a"), put("b","2") | Second chance: clear each flag the hand passes, so a victim is found within one revolution | high; not executed | KVServer.ReadThenPutHangs | CacheSet.PutSecondChance |

=== FILE: cache_set.dfy ===
/**
 * One shard ("set") of the set-associative cache: the inner class `CacheSet`
 * of KVCache.java together with its `SetEntry`.
 *
 * The Java shard is a `LinkedHashMap<String, SetEntry>` plus an integer clock
 * hand `keyPtr`. A `LinkedHashMap` iterates in insertion order and keeps a
 * key's position when the key is re-put, so the model splits it into the
 * insertion-ordered key sequence `keys` and the map `entries`.
 *
 * Eviction, as written in the source, scans a snapshot of the keys cyclically
 * from `keyPtr` and removes the first entry whose `referenced` flag is unset.
 * It never clears a flag on the way, so the scan terminates only when the full
 * shard holds at least one unreferenced entry; `Put` makes that its
 * precondition. `PutSecondChance` is the corrected clock algorithm that clears
 * the flags it passes over and therefore always finds a victim.
 */
module CacheSet {
  import opened Results

  /** The source's `SetEntry`: a cached value and its recency bit. */
  datatype Entry = Entry(value: string, referenced: bool)

  /** A shard: insertion-ordered keys, the entry map and the clock hand. */
  datatype Shard = Shard(keys: seq<string>, entries: map<string, Entry>, keyPtr: nat)

  predicate Distinct(s: seq<string>) {
    forall i, j | 0 <= i < j < |s| :: s[i] != s[j]
  }

  /** Every key of `keys` has an entry. */
  predicate Covered(keys: seq<string>, entries: map<string, Entry>) {
    forall k | k in keys :: k in entries
  }

  /** The key order lists each mapped key exactly once. */
  predicate WellFormed(sh: Shard) {
    && Distinct(sh.keys)
    && (forall k | k in sh.entries :: k in sh.keys)
    && (forall k | k in sh.keys :: k in sh.entries)
  }

  /**
   * The shard invariant kept by every operation: the shard is well formed,
   * holds at most `cap` entries and the clock hand lies in `[0, cap]`.
   */
  predicate Valid(sh: Shard, cap: nat) {
    && WellFormed(sh)
    && |sh.keys| <= cap
    && sh.keyPtr <= cap
  }

  /** The shard the constructor builds: an empty `LinkedHashMap` and `keyPtr == 0`. */
  function Empty(): (sh: Shard)
    ensures forall cap: nat :: Valid(sh, cap)
    ensures |sh.entries| == 0 && sh.keyPtr == 0
  {
    Shard([], map[], 0)
  }

  /** The shard's current mapping, without touching any flag. */
  function Lookup(sh: Shard, k: string): Option<string> {
    if k in sh.entries then Some(sh.entries[k].value) else None
  }

  // ---------------------------------------------------------------------------
  // The clock scan
  // ---------------------------------------------------------------------------

  /** Lines 89-91 of the loop: a hand equal to the capacity wraps to slot 0. */
  function Wrap(p: nat, cap: nat): nat {
    if p == cap then 0 else p
  }

  /** Number of steps from slot `q` to slot `i` going round `cap` slots. */
  function Dist(q: nat, i: nat, cap: nat): int {
    if q <= i then i - q else cap - q + i
  }

  /** Some slot of the key sequence holds an unreferenced entry. */
  predicate HasUnreferenced(keys: seq<string>, entries: map<string, Entry>) {
    exists i | 0 <= i < |keys| :: keys[i] in entries && !entries[keys[i]].referenced
  }

  /**
   * Reference definition of the eviction victim: `v` is the first slot, going
   * cyclically from slot `q`, whose entry is unreferenced.
   */
  ghost predicate IsVictim(keys: seq<string>, entries: map<string, Entry>, q: nat, v: nat) {
    && v < |keys|
    && keys[v] in entries
    && !entries[keys[v]].referenced
    && forall i | 0 <= i < |keys| && Dist(q, i, |keys|) < Dist(q, v, |keys|) ::
         keys[i] in entries && entries[keys[i]].referenced
  }

  /** There is only one first unreferenced slot. */
  lemma VictimUnique(keys: seq<string>, entries: map<string, Entry>, q: nat, v1: nat, v2: nat)
    requires q < |keys|
    requires IsVictim(keys, entries, q, v1) && IsVictim(keys, entries, q, v2)
    ensures v1 == v2
  {
    if Dist(q, v1, |keys|) < Dist(q, v2, |keys|) {
      assert false;
    } else if Dist(q, v2, |keys|) < Dist(q, v1, |keys|) {
      assert false;
    }
  }

  /** Some unreferenced slot, used only to bound the scan. */
  ghost function SomeUnreferenced(keys: seq<string>, entries: map<string, Entry>): (u: nat)
    requires HasUnreferenced(keys, entries)
    ensures u < |keys| && keys[u] in entries && !entries[keys[u]].referenced
  {
    var u :| 0 <= u < |keys| && keys[u] in entries && !entries[keys[u]].referenced; u
  }

  /**
   * The `while (true)` loop of `CacheSet.put` (lines 88-99): wrap the hand,
   * stop at the first unreferenced entry, otherwise advance. No flag changes.
   * The ghost slot `u` holds an unreferenced entry; the distance to it is
   * what makes the loop finish.
   */
  function Scan(keys: seq<string>, entries: map<string, Entry>, p: nat, ghost u: nat): (v: nat)
    requires p <= |keys| && Covered(keys, entries)
    requires u < |keys| && !entries[keys[u]].referenced
    ensures IsVictim(keys, entries, Wrap(p, |keys|), v)
    decreases Dist(Wrap(p, |keys|), u, |keys|)
  {
    var q := Wrap(p, |keys|);
    if !entries[keys[q]].referenced then q
    else Scan(keys, entries, q + 1, u)
  }

  /** The slot the as-written scan stops at when the full shard `sh` takes a put. */
  function Victim(sh: Shard, cap: nat): (v: nat)
    requires Valid(sh, cap) && |sh.keys| == cap
    requires HasUnreferenced(sh.keys, sh.entries)
    ensures v < cap
    ensures IsVictim(sh.keys, sh.entries, Wrap(sh.keyPtr, cap), v)
  {
    Scan(sh.keys, sh.entries, sh.keyPtr, SomeUnreferenced(sh.keys, sh.entries))
  }

  /** `s` with slot `i` removed, the rest in order. */
  function RemoveAt(s: seq<string>, i: nat): (r: seq<string>)
    requires i < |s|
    ensures |r| == |s| - 1
    ensures forall j | 0 <= j < i :: r[j] == s[j]
    ensures forall j | i <= j < |r| :: r[j] == s[j + 1]
  {
    s[..i] + s[i + 1..]
  }

  lemma RemoveAtMembers(s: seq<string>, i: nat)
    requires i < |s| && Distinct(s)
    ensures Distinct(RemoveAt(s, i))
    ensures forall x :: x in RemoveAt(s, i) <==> x in s && x != s[i]
  {
    var r := RemoveAt(s, i);
    forall x | x in s && x != s[i]
      ensures x in r
    {
      var j :| 0 <= j < |s| && s[j] == x;
      if j < i {
        assert r[j] == x;
      } else {
        assert r[j - 1] == x;
      }
    }
  }

  // ---------------------------------------------------------------------------
  // Shard operations, as written
  // ---------------------------------------------------------------------------

  /**
   * The put's scan finishes: the guard `map.size() == maxElemsPerSet` is false,
   * or some entry is unreferenced. With capacity 0 neither holds; the source
   * then fails on `keys[0]` of an empty array.
   */
  predicate CanPut(sh: Shard, cap: nat) {
    |sh.keys| < cap || HasUnreferenced(sh.keys, sh.entries)
  }

  /** The removal half of a put into a full shard: drop the victim, park the hand on its slot. */
  function Evict(sh: Shard, cap: nat): (r: Shard)
    requires Valid(sh, cap) && |sh.keys| == cap
    requires HasUnreferenced(sh.keys, sh.entries)
  {
    var v := Victim(sh, cap);
    Shard(RemoveAt(sh.keys, v), sh.entries - {sh.keys[v]}, v)
  }

  /**
   * `map.put(key, new SetEntry(value))`: a fresh, unreferenced entry. A new key
   * goes to the end of the insertion order; an existing key keeps its slot.
   */
  function Insert(sh: Shard, k: string, value: string): (r: Shard)
    ensures r.keyPtr == sh.keyPtr && k in r.entries && r.entries[k] == Entry(value, false)
    ensures r.keys == (if k in sh.entries then sh.keys else sh.keys + [k])
    ensures forall x | x != k :: (x in r.entries <==> x in sh.entries)
                                 && (x in r.entries ==> r.entries[x] == sh.entries[x])
  {
    if k in sh.entries then sh.(entries := sh.entries[k := Entry(value, false)])
    else Shard(sh.keys + [k], sh.entries[k := Entry(value, false)], sh.keyPtr)
  }

  /**
   * `CacheSet.put` (lines 83-102). The eviction fires whenever the shard is
   * full, including when `k` is already present.
   */
  function Put(sh: Shard, cap: nat, k: string, value: string): (r: Shard)
    requires Valid(sh, cap) && CanPut(sh, cap)
    ensures Valid(r, cap)
    ensures k in r.entries && r.entries[k] == Entry(value, false)
    ensures |sh.keys| < cap ==>
      && r.keyPtr == sh.keyPtr
      && r.keys == (if k in sh.entries then sh.keys else sh.keys + [k])
      && forall k' | k' != k :: (k' in r.entries <==> k' in sh.entries)
                                && (k' in r.entries ==> r.entries[k'] == sh.entries[k'])
    ensures |sh.keys| == cap ==>
      var v := Victim(sh, cap);
      && r.keyPtr == v
      && r.keys == (if k in sh.entries && k != sh.keys[v] then RemoveAt(sh.keys, v)
                    else RemoveAt(sh.keys, v) + [k])
      && forall k' | k' != k :: (k' in r.entries <==> k' in sh.entries && k' != sh.keys[v])
                                && (k' in r.entries ==> r.entries[k'] == sh.entries[k'])
  {
    if |sh.keys| == cap then
      RemoveAtMembers(sh.keys, Victim(sh, cap));
      var s1 := Evict(sh, cap);
      InsertValid(s1, cap, k, value);
      Insert(s1, k, value)
    else
      InsertValid(sh, cap, k, value);
      Insert(sh, k, value)
  }

  lemma InsertValid(sh: Shard, cap: nat, k: string, value: string)
    requires WellFormed(sh) && sh.keyPtr <= cap && |sh.keys| <= cap
    requires |sh.keys| < cap || k in sh.entries
    ensures Valid(Insert(sh, k, value), cap)
  {
  }

  /**
   * `CacheSet.get` (lines 104-111): a hit sets the entry's flag and returns its
   * value; a miss returns `null`.
   */
  function Get(sh: Shard, k: string): (r: (Option<string>, Shard))
    ensures k in sh.entries ==>
      && r.0 == Some(sh.entries[k].value)
      && r.1.keys == sh.keys && r.1.keyPtr == sh.keyPtr
      && r.1.entries.Keys == sh.entries.Keys
      && r.1.entries[k] == Entry(sh.entries[k].value, true)
      && forall k' | k' in sh.entries && k' != k :: r.1.entries[k'] == sh.entries[k']
    ensures k !in sh.entries ==> r.0 == None && r.1 == sh
    ensures forall x :: Lookup(r.1, x) == Lookup(sh, x)
  {
    if k in sh.entries then
      (Some(sh.entries[k].value), sh.(entries := sh.entries[k := sh.entries[k].(referenced := true)]))
    else
      (None, sh)
  }

  function IndexOf(s: seq<string>, x: string): (i: nat)
    requires x in s
    ensures i < |s| && s[i] == x
  {
    if s[0] == x then 0 else 1 + IndexOf(s[1..], x)
  }

  /** `CacheSet.del` (lines 113-117): drop `k` if present; the hand stays put. */
  function Del(sh: Shard, k: string): (r: Shard)
    requires WellFormed(sh)
    ensures WellFormed(r) && |r.keys| <= |sh.keys| && r.keyPtr == sh.keyPtr
    ensures k !in r.entries
    ensures forall k' | k' != k :: (k' in r.entries <==> k' in sh.entries)
                                   && (k' in r.entries ==> r.entries[k'] == sh.entries[k'])
    ensures k in sh.entries ==> r.keys == RemoveAt(sh.keys, IndexOf(sh.keys, k))
    ensures k !in sh.entries ==> r == sh
  {
    if k in sh.entries then
      var i := IndexOf(sh.keys, k);
      RemoveAtMembers(sh.keys, i);
      Shard(RemoveAt(sh.keys, i), sh.entries - {k}, sh.keyPtr)
    else sh
  }

  // ---------------------------------------------------------------------------
  // Properties of the as-written shard
  // ---------------------------------------------------------------------------

  /**
   * With no entry referenced (no get since the entries were put), the full
   * shard evicts exactly the key under the clock hand.
   */
  lemma NoReferencesEvictsAtHand(sh: Shard, cap: nat)
    requires Valid(sh, cap) && |sh.keys| == cap && 0 < cap
    requires forall k | k in sh.entries :: !sh.entries[k].referenced
    ensures HasUnreferenced(sh.keys, sh.entries)
    ensures Victim(sh, cap) == Wrap(sh.keyPtr, cap)
  {
    var q := Wrap(sh.keyPtr, cap);
    assert sh.keys[q] in sh.entries;
    assert IsVictim(sh.keys, sh.entries, q, q);
    VictimUnique(sh.keys, sh.entries, q, q, Victim(sh, cap));
  }

  /**
   * The as-written scan never clears a flag, so a referenced entry is never
   * the victim: it survives every put of another key, entry and all.
   */
  lemma ReferencedNeverEvicted(sh: Shard, cap: nat, k: string, value: string, k': string)
    requires Valid(sh, cap) && CanPut(sh, cap)
    requires k' in sh.entries && sh.entries[k'].referenced && k' != k
    ensures k' in Put(sh, cap, k, value).entries
    ensures Put(sh, cap, k, value).entries[k'] == sh.entries[k']
  {
  }

  /**
   * A get marks the key it hits; once every key of a full shard has been read
   * the as-written put can no longer finish.
   */
  lemma {:induction false} GetAllBlocksPut(sh: Shard, cap: nat, ks: seq<string>)
    requires Valid(sh, cap) && |sh.keys| == cap
    requires forall i | 0 <= i < |sh.keys| :: sh.keys[i] in ks
    ensures !CanPut(GetAll(sh, ks), cap)
    ensures Valid(GetAll(sh, ks), cap) && GetAll(sh, ks).keys == sh.keys
  {
    GetAllMarks(sh, ks);
  }

  /** The shard after a get of each key of `ks` in turn. */
  function GetAll(sh: Shard, ks: seq<string>): Shard
    decreases |ks|
  {
    if |ks| == 0 then sh else GetAll(Get(sh, ks[0]).1, ks[1..])
  }

  lemma {:induction false} GetAllMarks(sh: Shard, ks: seq<string>)
    ensures GetAll(sh, ks).keys == sh.keys && GetAll(sh, ks).keyPtr == sh.keyPtr
    ensures GetAll(sh, ks).entries.Keys == sh.entries.Keys
    ensures forall k | k in sh.entries && k in ks :: GetAll(sh, ks).entries[k].referenced
    ensures forall k | k in sh.entries && sh.entries[k].referenced :: GetAll(sh, ks).entries[k].referenced
    decreases |ks|
  {
    if |ks| > 0 {
      GetAllMarks(Get(sh, ks[0]).1, ks[1..]);
      forall k | k in sh.entries && k in ks
        ensures GetAll(sh, ks).entries[k].referenced
      {
        if k != ks[0] {
          assert k in ks[1..];
        }
      }
    }
  }

  // ---------------------------------------------------------------------------
  // The corrected clock: second chance
  // ---------------------------------------------------------------------------

  /** Number of referenced entries along `keys`. */
  function CountReferenced(keys: seq<string>, entries: map<string, Entry>): nat
    requires Covered(keys, entries)
  {
    if |keys| == 0 then 0
    else (if entries[keys[0]].referenced then 1 else 0) + CountReferenced(keys[1..], entries)
  }

  /** `entries` with the flag of `x` cleared. */
  function Clear(entries: map<string, Entry>, x: string): map<string, Entry>
    requires x in entries
  {
    entries[x := entries[x].(referenced := false)]
  }

  /** Clearing the flag of a referenced key listed once lowers the count by one. */
  lemma {:induction false} ClearLowersCount(keys: seq<string>, entries: map<string, Entry>, x: string)
    requires Covered(keys, entries) && Distinct(keys)
    requires x in entries && entries[x].referenced
    ensures CountReferenced(keys, Clear(entries, x))
            == CountReferenced(keys, entries) - (if x in keys then 1 else 0)
  {
    if |keys| > 0 {
      assert Distinct(keys[1..]);
      ClearLowersCount(keys[1..], entries, x);
      if keys[0] == x {
        assert x !in keys[1..];
      }
    }
  }

  /**
   * The second-chance scan the clock algorithm intends: a referenced entry
   * under the hand has its flag cleared and is passed over; the first
   * unreferenced entry is the victim. Every step either stops or clears a
   * flag, so the scan ends within one revolution plus one slot.
   */
  function ScanClearing(keys: seq<string>, entries: map<string, Entry>, p: nat): (r: (nat, map<string, Entry>))
    requires 0 < |keys| && p <= |keys| && Distinct(keys) && Covered(keys, entries)
    ensures r.0 < |keys|
    ensures r.1.Keys == entries.Keys && Covered(keys, r.1)
    ensures forall k | k in entries ::
      r.1[k].value == entries[k].value && (r.1[k].referenced ==> entries[k].referenced)
    ensures !r.1[keys[r.0]].referenced
    ensures forall i | 0 <= i < |keys| && Dist(Wrap(p, |keys|), i, |keys|) < Dist(Wrap(p, |keys|), r.0, |keys|) ::
      !r.1[keys[i]].referenced
    ensures HasUnreferenced(keys, entries) ==> IsVictim(keys, entries, Wrap(p, |keys|), r.0)
    ensures HasUnreferenced(keys, entries) ==>
      forall i | 0 <= i < |keys| && Dist(Wrap(p, |keys|), i, |keys|) >= Dist(Wrap(p, |keys|), r.0, |keys|) ::
        r.1[keys[i]] == entries[keys[i]]
    ensures !HasUnreferenced(keys, entries) ==> r.0 == Wrap(p, |keys|)
    ensures !HasUnreferenced(keys, entries) ==>
      forall i | 0 <= i < |keys| :: r.1[keys[i]] == entries[keys[i]].(referenced := false)
    ensures forall k | k in entries && k !in keys :: r.1[k] == entries[k]
    decreases CountReferenced(keys, entries)
  {
    var q := Wrap(p, |keys|);
    if !entries[keys[q]].referenced then (q, entries)
    else
      var e' := Clear(entries, keys[q]);
      ClearLowersCount(keys, entries, keys[q]);
      assert keys[q] in e' && !e'[keys[q]].referenced;
      assert HasUnreferenced(keys, e');
      var r := ScanClearing(keys, e', q + 1);
      ScanClearingStep(keys, entries, q, r.0);
      ScanClearingKeeps(keys, entries, q, r.0, r.1);
      r
  }

  /**
   * The slots one step of the second-chance scan leaves alone: those at or
   * beyond the victim keep their entries, and when every entry was
   * referenced the whole revolution clears every flag.
   */
  lemma ScanClearingKeeps(keys: seq<string>, entries: map<string, Entry>, q: nat, v: nat, e: map<string, Entry>)
    requires q < |keys| && v < |keys| && Distinct(keys) && Covered(keys, entries)
    requires entries[keys[q]].referenced
    requires e.Keys == entries.Keys
    requires forall k | k in entries :: e[k].value == entries[k].value
    requires IsVictim(keys, Clear(entries, keys[q]), Wrap(q + 1, |keys|), v)
    requires forall i | 0 <= i < |keys| && Dist(Wrap(q + 1, |keys|), i, |keys|) < Dist(Wrap(q + 1, |keys|), v, |keys|) ::
      !e[keys[i]].referenced
    requires forall i | 0 <= i < |keys| && Dist(Wrap(q + 1, |keys|), i, |keys|) >= Dist(Wrap(q + 1, |keys|), v, |keys|) ::
      e[keys[i]] == Clear(entries, keys[q])[keys[i]]
    ensures HasUnreferenced(keys, entries) ==>
      forall i | 0 <= i < |keys| && Dist(q, i, |keys|) >= Dist(q, v, |keys|) :: e[keys[i]] == entries[keys[i]]
    ensures !HasUnreferenced(keys, entries) ==>
      forall i | 0 <= i < |keys| :: e[keys[i]] == entries[keys[i]].(referenced := false)
  {
    var q' := Wrap(q + 1, |keys|);
    var e' := Clear(entries, keys[q]);
    ScanClearingStep(keys, entries, q, v);
    if HasUnreferenced(keys, entries) {
      assert v != q;
      forall i | 0 <= i < |keys| && Dist(q, i, |keys|) >= Dist(q, v, |keys|)
        ensures e[keys[i]] == entries[keys[i]]
      {
        assert i != q;
        assert Dist(q', i, |keys|) >= Dist(q', v, |keys|);
        assert keys[i] != keys[q];
      }
    } else {
      assert v == q;
      forall i | 0 <= i < |keys|
        ensures e[keys[i]] == entries[keys[i]].(referenced := false)
      {
        if i == q {
          assert Dist(q', i, |keys|) >= Dist(q', v, |keys|);
        } else {
          assert Dist(q', i, |keys|) < Dist(q', v, |keys|);
          assert keys[i] in entries && entries[keys[i]].referenced;
        }
      }
    }
  }

  /** One step of the second-chance scan, for the postconditions of `ScanClearing`. */
  lemma ScanClearingStep(keys: seq<string>, entries: map<string, Entry>, q: nat, v: nat)
    requires q < |keys| && Distinct(keys) && Covered(keys, entries)
    requires entries[keys[q]].referenced
    requires IsVictim(keys, Clear(entries, keys[q]), Wrap(q + 1, |keys|), v)
    ensures HasUnreferenced(keys, entries) ==> IsVictim(keys, entries, q, v)
    ensures !HasUnreferenced(keys, entries) ==> v == q
    ensures v != q ==> forall i | 0 <= i < |keys| && i != q ::
      Dist(Wrap(q + 1, |keys|), i, |keys|) == Dist(q, i, |keys|) - 1
  {
    var e' := Clear(entries, keys[q]);
    var q' := Wrap(q + 1, |keys|);
    if HasUnreferenced(keys, entries) {
      var u :| 0 <= u < |keys| && keys[u] in entries && !entries[keys[u]].referenced;
      assert u != q;
      assert e'[keys[u]] == entries[keys[u]];
      assert Dist(q', u, |keys|) < Dist(q', q, |keys|);
      assert v != q;
    } else {
      assert IsVictim(keys, e', q', q);
      VictimUnique(keys, e', q', q, v);
    }
  }

  /**
   * The removal half of the corrected put into a full shard: run the
   * second-chance scan, drop the key it stops at and park the hand there.
   * Slots the hand passed over lose their flag; the others keep theirs.
   */
  function EvictClearing(sh: Shard, cap: nat): (r: Shard)
    requires Valid(sh, cap) && |sh.keys| == cap && 0 < cap
    ensures r.keyPtr < cap && r.keys == RemoveAt(sh.keys, r.keyPtr)
    ensures WellFormed(r) && |r.keys| < cap
    ensures forall x :: x in r.entries <==> x in sh.entries && x != sh.keys[r.keyPtr]
    ensures forall x | x in r.entries ::
      r.entries[x].value == sh.entries[x].value && (r.entries[x].referenced ==> sh.entries[x].referenced)
    ensures HasUnreferenced(sh.keys, sh.entries) ==> r.keyPtr == Victim(sh, cap)
    ensures !HasUnreferenced(sh.keys, sh.entries) ==> r.keyPtr == Wrap(sh.keyPtr, cap)
  {
    var sc := ScanClearing(sh.keys, sh.entries, sh.keyPtr);
    var v := sc.0;
    RemoveAtMembers(sh.keys, v);
    if HasUnreferenced(sh.keys, sh.entries) then
      VictimUnique(sh.keys, sh.entries, Wrap(sh.keyPtr, cap), v, Victim(sh, cap));
      Shard(RemoveAt(sh.keys, v), sc.1 - {sh.keys[v]}, v)
    else
      Shard(RemoveAt(sh.keys, v), sc.1 - {sh.keys[v]}, v)
  }

  /**
   * The flags the corrected eviction leaves, slot by slot: with an
   * unreferenced entry, the slots the hand passed are cleared and the others
   * kept; with none, every flag is cleared.
   */
  lemma EvictClearingFlags(sh: Shard, cap: nat)
    requires Valid(sh, cap) && |sh.keys| == cap && 0 < cap
    ensures var r := EvictClearing(sh, cap);
      HasUnreferenced(sh.keys, sh.entries) ==>
        var q := Wrap(sh.keyPtr, cap);
        forall i | 0 <= i < cap && i != r.keyPtr ::
          sh.keys[i] in r.entries
          && r.entries[sh.keys[i]] == (if Dist(q, i, cap) < Dist(q, r.keyPtr, cap)
                                       then sh.entries[sh.keys[i]].(referenced := false)
                                       else sh.entries[sh.keys[i]])
    ensures var r := EvictClearing(sh, cap);
      !HasUnreferenced(sh.keys, sh.entries) ==>
        forall i | 0 <= i < cap && i != r.keyPtr ::
          sh.keys[i] in r.entries && r.entries[sh.keys[i]] == sh.entries[sh.keys[i]].(referenced := false)
  {
    var sc := ScanClearing(sh.keys, sh.entries, sh.keyPtr);
    ClearedSlots(sh.keys, sh.entries, Wrap(sh.keyPtr, cap), sc.0, sc.1);
  }

  /**
   * The flags left after the second-chance scan stopped at `v` from `q` and
   * the entry of `v` was dropped, slot by slot.
   */
  lemma ClearedSlots(keys: seq<string>, entries: map<string, Entry>, q: nat, v: nat, e: map<string, Entry>)
    requires q < |keys| && v < |keys| && Distinct(keys) && Covered(keys, entries) && Covered(keys, e)
    requires forall i | 0 <= i < |keys| && Dist(q, i, |keys|) < Dist(q, v, |keys|) ::
      e[keys[i]].value == entries[keys[i]].value && !e[keys[i]].referenced
    requires HasUnreferenced(keys, entries) ==>
      forall i | 0 <= i < |keys| && Dist(q, i, |keys|) >= Dist(q, v, |keys|) :: e[keys[i]] == entries[keys[i]]
    requires !HasUnreferenced(keys, entries) ==>
      forall i | 0 <= i < |keys| :: e[keys[i]] == entries[keys[i]].(referenced := false)
    ensures HasUnreferenced(keys, entries) ==>
      forall i | 0 <= i < |keys| && i != v ::
        (e - {keys[v]})[keys[i]] == (if Dist(q, i, |keys|) < Dist(q, v, |keys|)
                                     then entries[keys[i]].(referenced := false)
                                     else entries[keys[i]])
    ensures !HasUnreferenced(keys, entries) ==>
      forall i | 0 <= i < |keys| && i != v :: (e - {keys[v]})[keys[i]] == entries[keys[i]].(referenced := false)
    ensures forall i | 0 <= i < |keys| && i != v :: keys[i] in e - {keys[v]}
  {
    DropKeepsOthers(keys, e, v);
  }

  /** Removing the entry of slot `v` leaves the entry of every other slot as it was. */
  lemma DropKeepsOthers(keys: seq<string>, e: map<string, Entry>, v: nat)
    requires v < |keys| && Distinct(keys) && Covered(keys, e)
    ensures forall i | 0 <= i < |keys| && i != v ::
      keys[i] in e - {keys[v]} && (e - {keys[v]})[keys[i]] == e[keys[i]]
  {
  }

  /**
   * The corrected `CacheSet.put`: as in the source, except that the scan of a
   * full shard clears the flags it passes over, so a put always finishes.
   */
  function PutSecondChance(sh: Shard, cap: nat, k: string, value: string): (r: Shard)
    requires Valid(sh, cap) && 0 < cap
    ensures Valid(r, cap)
    ensures k in r.entries && r.entries[k] == Entry(value, false)
    ensures |sh.keys| < cap ==> r == Put(sh, cap, k, value)
    ensures |sh.keys| == cap ==>
      && r.keyPtr < cap
      && r.keys == (if k in sh.entries && k != sh.keys[r.keyPtr] then RemoveAt(sh.keys, r.keyPtr)
                    else RemoveAt(sh.keys, r.keyPtr) + [k])
      && forall k' | k' != k ::
           && (k' in r.entries <==> k' in sh.entries && k' != sh.keys[r.keyPtr])
           && (k' in r.entries ==> r.entries[k'].value == sh.entries[k'].value
                                   && (r.entries[k'].referenced ==> sh.entries[k'].referenced))
    ensures |sh.keys| == cap && HasUnreferenced(sh.keys, sh.entries) ==>
      r.keyPtr == Victim(sh, cap)
    ensures |sh.keys| == cap && HasUnreferenced(sh.keys, sh.entries) ==>
      var q := Wrap(sh.keyPtr, cap);
      forall i | 0 <= i < cap && i != r.keyPtr && sh.keys[i] != k ::
        r.entries[sh.keys[i]] == (if Dist(q, i, cap) < Dist(q, r.keyPtr, cap)
                                  then sh.entries[sh.keys[i]].(referenced := false)
                                  else sh.entries[sh.keys[i]])
    ensures |sh.keys| == cap && !HasUnreferenced(sh.keys, sh.entries) ==>
      r.keyPtr == Wrap(sh.keyPtr, cap)
    ensures |sh.keys| == cap && !HasUnreferenced(sh.keys, sh.entries) ==>
      forall i | 0 <= i < cap && i != r.keyPtr && sh.keys[i] != k ::
        r.entries[sh.keys[i]] == sh.entries[sh.keys[i]].(referenced := false)
  {
    if |sh.keys| == cap then
      var s1 := EvictClearing(sh, cap);
      EvictClearingFlags(sh, cap);
      InsertValid(s1, cap, k, value);
      Insert(s1, k, value)
    else
      Put(sh, cap, k, value)
  }

  /**
   * When the as-written put finishes, the corrected one evicts the same key,
   * leaves the same keys, values and hand; only flags it passed over differ.
   */
  lemma SecondChanceAgreesWithPut(sh: Shard, cap: nat, k: string, value: string)
    requires Valid(sh, cap) && 0 < cap && CanPut(sh, cap)
    ensures var a, b := Put(sh, cap, k, value), PutSecondChance(sh, cap, k, value);
      && b.keys == a.keys && b.keyPtr == a.keyPtr && b.entries.Keys == a.entries.Keys
      && forall x | x in a.entries :: b.entries[x].value == a.entries[x].value
  {
    if |sh.keys| == cap {
      EvictAgrees(sh, cap);
      InsertAgrees(Evict(sh, cap), EvictClearing(sh, cap), k, value);
    }
  }

  /** Shards with the same slots, hand, key set and values. */
  predicate SameButFlags(s1: Shard, s2: Shard) {
    && s1.keys == s2.keys && s1.keyPtr == s2.keyPtr && s1.entries.Keys == s2.entries.Keys
    && forall x | x in s1.entries :: s1.entries[x].value == s2.entries[x].value
  }

  /** When the as-written scan stops, the second-chance scan evicts the same slot. */
  lemma EvictAgrees(sh: Shard, cap: nat)
    requires Valid(sh, cap) && |sh.keys| == cap && 0 < cap && HasUnreferenced(sh.keys, sh.entries)
    ensures SameButFlags(Evict(sh, cap), EvictClearing(sh, cap))
  {
    var s1, s2 := Evict(sh, cap), EvictClearing(sh, cap);
    assert s1.keyPtr == s2.keyPtr;
    assert s1.entries.Keys == s2.entries.Keys by {
      assert forall x :: x in s1.entries <==> x in s2.entries;
    }
  }

  /** Inserting the same key and value keeps two shards that differ only in flags so. */
  lemma InsertAgrees(s1: Shard, s2: Shard, k: string, value: string)
    requires SameButFlags(s1, s2)
    ensures SameButFlags(Insert(s1, k, value), Insert(s2, k, value))
  {
    var a, b := Insert(s1, k, value), Insert(s2, k, value);
    assert a.entries.Keys == b.entries.Keys by {
      assert forall x :: x in a.entries <==> x in b.entries;
    }
  }


  /**
   * The shard the source can reach in which `put` spins: capacity 1, key "a"
   * put and then read. The corrected put evicts "a" instead.
   */
  lemma ReadShardBlocksPut()
    ensures Valid(ReadShard(), 1) && !CanPut(ReadShard(), 1)
    ensures PutSecondChance(ReadShard(), 1, "b", "2").entries.Keys == {"b"}
  {
    ReadShardFull();
    ReadShardEvictsA();
    var s1 := EvictClearing(ReadShard(), 1);
    assert PutSecondChance(ReadShard(), 1, "b", "2") == Insert(s1, "b", "2");
  }

  /** The read shard is full and every entry in it is referenced. */
  lemma ReadShardFull()
    ensures Valid(ReadShard(), 1) && |ReadShard().keys| == 1
    ensures !HasUnreferenced(ReadShard().keys, ReadShard().entries)
  {
  }

  /** The corrected eviction empties the read shard. */
  lemma ReadShardEvictsA()
    requires Valid(ReadShard(), 1) && |ReadShard().keys| == 1
    ensures EvictClearing(ReadShard(), 1).entries == map[]
  {
    var s1 := EvictClearing(ReadShard(), 1);
    assert s1.keyPtr == 0;
    assert forall x :: x !in s1.entries;
  }

  /** Capacity 1: the shard after putting "a" and reading it back. */
  function ReadShard(): (sh: Shard)
    ensures sh == Shard(["a"], map["a" := Entry("1", true)], 0)
  {
    var s0 := Put(Empty(), 1, "a", "1");
    assert s0.keys == ["a"];
    Get(s0, "a").1
  }
}

=== FILE: kv_cache.dfy ===
/**
 * The set-associative cache of KVCache.java: `numSets` independent shards of
 * at most `maxElemsPerSet` entries each. A key lives in the shard numbered
 * `abs(hashCode(key)) % numSets`; `hashCode` is a parameter `hash` of every
 * operation, fixed for the life of a cache.
 *
 * The eviction policy is a field of the model (not of the source): `AsWritten`
 * runs the source's scan, which can fail to finish, and `SecondChance` runs
 * the corrected clock. `Put` reports the first case as `None`.
 */
module KVCache {
  import opened Results
  import CacheSet

  /** Which clock scan a full shard runs on a put. */
  datatype Eviction = AsWritten | SecondChance

  /** `numSets`, `maxElemsPerSet` (here `cap`) and the list `cacheSets`. */
  datatype Cache = Cache(numSets: nat, cap: nat, sets: seq<CacheSet.Shard>, policy: Eviction)

  /** `Math.abs` on an unbounded integer. */
  function Abs(x: int): nat {
    if x < 0 then -x else x
  }

  /** `getSetId` (lines 232-234): the shard a key is routed to. */
  function SetId(hash: string -> int, numSets: nat, k: string): (i: nat)
    requires 0 < numSets
    ensures i < numSets
  {
    Abs(hash(k)) % numSets
  }

  /**
   * Cache invariant: one valid shard per set number, no shard of capacity 0,
   * and every cached key sits in the shard its hash selects.
   */
  predicate Valid(c: Cache, hash: string -> int) {
    && 0 < c.numSets && 0 < c.cap
    && |c.sets| == c.numSets
    && (forall i | 0 <= i < |c.sets| :: CacheSet.Valid(c.sets[i], c.cap))
    && (forall i, k | 0 <= i < |c.sets| && k in c.sets[i].entries :: SetId(hash, c.numSets, k) == i)
  }

  /**
   * The constructor `KVCache(numSets, maxElemsPerSet)` (lines 145-153):
   * `numSets` empty shards, each with its hand at 0.
   */
  function New(numSets: nat, cap: nat, policy: Eviction): (c: Cache)
    ensures |c.sets| == numSets && c.numSets == numSets && c.cap == cap
    ensures forall i | 0 <= i < numSets :: |c.sets[i].entries| == 0 && c.sets[i].keyPtr == 0
    ensures forall hash: string -> int :: 0 < numSets && 0 < cap ==> Valid(c, hash)
  {
    Cache(numSets, cap, seq(numSets, _ => CacheSet.Empty()), policy)
  }

  /** What the cache maps `k` to, without touching any flag. */
  function Lookup(c: Cache, hash: string -> int, k: string): Option<string>
    requires Valid(c, hash)
  {
    CacheSet.Lookup(c.sets[SetId(hash, c.numSets, k)], k)
  }

  /** A key is in the cache only in its own shard. */
  lemma OnlyInOwnShard(c: Cache, hash: string -> int, k: string, i: nat)
    requires Valid(c, hash) && i < |c.sets| && i != SetId(hash, c.numSets, k)
    ensures k !in c.sets[i].entries
  {
  }

  /**
   * `KVCache.get` (lines 161-173): the shard's get on shard `SetId(k)`; every
   * other shard is left as it was.
   */
  function Get(c: Cache, hash: string -> int, k: string): (r: (Option<string>, Cache))
    requires Valid(c, hash)
    ensures Valid(r.1, hash)
    ensures r.0 == Lookup(c, hash, k)
    ensures r.0.None? ==> r.1 == c
    ensures forall x :: Lookup(r.1, hash, x) == Lookup(c, hash, x)
    ensures r.1.numSets == c.numSets && r.1.cap == c.cap && r.1.policy == c.policy
    ensures forall j | 0 <= j < |c.sets| && j != SetId(hash, c.numSets, k) :: r.1.sets[j] == c.sets[j]
    ensures r.0.Some? ==>
      var sh := r.1.sets[SetId(hash, c.numSets, k)];
      k in sh.entries && sh.entries[k].referenced
    ensures r.1.sets[SetId(hash, c.numSets, k)] == CacheSet.Get(c.sets[SetId(hash, c.numSets, k)], k).1
  {
    var i := SetId(hash, c.numSets, k);
    var (v, sh) := CacheSet.Get(c.sets[i], k);
    var c' := c.(sets := c.sets[i := sh]);
    assert Valid(c', hash);
    SameShardsSameLookup(c, c', hash, k);
    (v, c')
  }

  /**
   * `KVCache.put` (lines 184-195): the shard's put on shard `SetId(k)`.
   * `None` when the as-written scan of that shard would never stop.
   */
  function Put(c: Cache, hash: string -> int, k: string, value: string): (r: Option<Cache>)
    requires Valid(c, hash)
    ensures r.None? <==>
      c.policy == AsWritten && !CacheSet.CanPut(c.sets[SetId(hash, c.numSets, k)], c.cap)
    ensures r.Some? ==>
      && Valid(r.value, hash)
      && r.value.numSets == c.numSets && r.value.cap == c.cap && r.value.policy == c.policy
      && Lookup(r.value, hash, k) == Some(value)
      && (forall x | x != k :: Lookup(r.value, hash, x) == Lookup(c, hash, x)
                               || Lookup(r.value, hash, x) == None)
      && (forall j | 0 <= j < |c.sets| && j != SetId(hash, c.numSets, k) :: r.value.sets[j] == c.sets[j])
    ensures r.Some? && c.policy == SecondChance ==>
      r.value.sets[SetId(hash, c.numSets, k)]
        == CacheSet.PutSecondChance(c.sets[SetId(hash, c.numSets, k)], c.cap, k, value)
    ensures r.Some? && c.policy == AsWritten ==>
      && CacheSet.CanPut(c.sets[SetId(hash, c.numSets, k)], c.cap)
      && r.value.sets[SetId(hash, c.numSets, k)] == CacheSet.Put(c.sets[SetId(hash, c.numSets, k)], c.cap, k, value)
  {
    var i := SetId(hash, c.numSets, k);
    var sh := c.sets[i];
    match c.policy
    case SecondChance =>
      var c' := c.(sets := c.sets[i := CacheSet.PutSecondChance(sh, c.cap, k, value)]);
      PutKeepsRouting(c, c', hash, k);
      Some(c')
    case AsWritten =>
      if CacheSet.CanPut(sh, c.cap) then
        var c' := c.(sets := c.sets[i := CacheSet.Put(sh, c.cap, k, value)]);
        PutKeepsRouting(c, c', hash, k);
        Some(c')
      else
        None
  }

  /** Replacing the shard of `k` by one holding only `k` and old keys keeps the cache valid. */
  lemma PutKeepsRouting(c: Cache, c': Cache, hash: string -> int, k: string)
    requires Valid(c, hash)
    requires c'.numSets == c.numSets && c'.cap == c.cap && |c'.sets| == |c.sets|
    requires forall j | 0 <= j < |c.sets| && j != SetId(hash, c.numSets, k) :: c'.sets[j] == c.sets[j]
    requires var i := SetId(hash, c.numSets, k);
      && CacheSet.Valid(c'.sets[i], c.cap)
      && forall x | x in c'.sets[i].entries :: x == k || x in c.sets[i].entries
    ensures Valid(c', hash)
  {
  }

  /** Lookups of keys routed to untouched shards do not change. */
  lemma SameShardsSameLookup(c: Cache, c': Cache, hash: string -> int, k: string)
    requires Valid(c, hash) && Valid(c', hash) && c'.numSets == c.numSets
    requires forall j | 0 <= j < |c.sets| && j != SetId(hash, c.numSets, k) :: c'.sets[j] == c.sets[j]
    requires forall x :: CacheSet.Lookup(c'.sets[SetId(hash, c.numSets, k)], x)
                         == CacheSet.Lookup(c.sets[SetId(hash, c.numSets, k)], x)
    ensures forall x :: Lookup(c', hash, x) == Lookup(c, hash, x)
  {
    forall x
      ensures Lookup(c', hash, x) == Lookup(c, hash, x)
    {
      var j := SetId(hash, c.numSets, x);
      if j != SetId(hash, c.numSets, k) {
        assert c'.sets[j] == c.sets[j];
      }
    }
  }

  /**
   * `KVCache.del` (lines 202-213): the shard's del on shard `SetId(k)`.
   */
  function Del(c: Cache, hash: string -> int, k: string): (r: Cache)
    requires Valid(c, hash)
    ensures Valid(r, hash)
    ensures r.numSets == c.numSets && r.cap == c.cap && r.policy == c.policy
    ensures Lookup(r, hash, k) == None
    ensures forall x | x != k :: Lookup(r, hash, x) == Lookup(c, hash, x)
    ensures forall j | 0 <= j < |c.sets| && j != SetId(hash, c.numSets, k) :: r.sets[j] == c.sets[j]
    ensures Lookup(c, hash, k) == None ==> r == c
    ensures r.sets[SetId(hash, c.numSets, k)] == CacheSet.Del(c.sets[SetId(hash, c.numSets, k)], k)
  {
    var i := SetId(hash, c.numSets, k);
    var c' := c.(sets := c.sets[i := CacheSet.Del(c.sets[i], k)]);
    PutKeepsRouting(c, c', hash, k);
    c'
  }
}

=== FILE: kv_message.dfy ===
/**
 * The message schema of KVMessage.java: the type whitelist, the field rules
 * `toXML` enforces when encoding and the schema checks of the socket
 * constructor when decoding.
 *
 * XML text is not modelled. A document is the list of its elements in
 * document order, which is what `getElementsByTagName` searches; each element
 * has its tag, its attributes in the order the DOM lists them and its text
 * content.
 */
module KVMessage {
  import opened Results

  const MsgFormatErr := "Message Format Incorrect"
  const NoKeyErr := "XML Error: No Key"
  const NoValueErr := "XML Error: No Value"
  const NotEnoughDataErr := "XML Error: not enough data"

  const RootTag := "KVMessage"
  const KeyTag := "Key"
  const ValueTag := "Value"
  const MessageTag := "Message"
  const TypeAttr := "type"

  /** The four entries of `MSG_TYPES` (line 61). */
  datatype MsgType = GetReq | PutReq | DelReq | Resp {
    predicate IsRequest() {
      this != Resp
    }
  }

  /** The wire name of a message type. */
  function TypeName(t: MsgType): string {
    match t
    case GetReq => "getreq"
    case PutReq => "putreq"
    case DelReq => "delreq"
    case Resp => "resp"
  }

  /** `TYPE_SET.contains` (lines 61-62): only the four wire names are types. */
  function ParseType(s: string): (r: Option<MsgType>)
    ensures r.Some? <==> s == "getreq" || s == "putreq" || s == "delreq" || s == "resp"
    ensures r.Some? ==> TypeName(r.value) == s
  {
    if s == "getreq" then Some(GetReq)
    else if s == "putreq" then Some(PutReq)
    else if s == "delreq" then Some(DelReq)
    else if s == "resp" then Some(Resp)
    else None
  }

  lemma TypeNameParses(t: MsgType)
    ensures ParseType(TypeName(t)) == Some(t)
  {
  }

  /** A message: its type and the three optional (`null`-able) fields. */
  datatype Message = Message(msgType: MsgType, key: Option<string>, value: Option<string>, message: Option<string>)

  /**
   * The field combinations a message of each type carries and nothing else:
   * a key for get and del, a key and value for put, and for a response
   * either a key and value or an error message.
   */
  predicate WellFormed(m: Message) {
    match m.msgType
    case GetReq => m.key.Some? && m.value.None? && m.message.None?
    case DelReq => m.key.Some? && m.value.None? && m.message.None?
    case PutReq => m.key.Some? && m.value.Some? && m.message.None?
    case Resp =>
      || (m.key.Some? && m.value.Some? && m.message.None?)
      || (m.message.Some? && m.key.None? && m.value.None?)
  }

  /** The constructor `KVMessage(String msgType)` (lines 111-117). */
  function New(t: string): (r: Result<Message, string>)
    ensures r.Ok? <==> ParseType(t).Some?
    ensures r.Ok? ==> r.value == Message(ParseType(t).value, None, None, None)
    ensures r.Err? ==> r.error == MsgFormatErr
  {
    match ParseType(t)
    case None => Err(MsgFormatErr)
    case Some(mt) => Ok(Message(mt, None, None, None))
  }

  /** The constructor `KVMessage(String msgType, String message)` (lines 119-126). */
  function NewWithMessage(t: string, text: Option<string>): (r: Result<Message, string>)
    ensures r.Ok? <==> ParseType(t).Some?
    ensures r.Ok? ==> r.value == Message(ParseType(t).value, None, None, text)
    ensures r.Err? ==> r.error == MsgFormatErr
  {
    match ParseType(t)
    case None => Err(MsgFormatErr)
    case Some(mt) => Ok(Message(mt, None, None, text))
  }

  // ---------------------------------------------------------------------------
  // Abstract documents
  // ---------------------------------------------------------------------------

  datatype Attr = Attr(name: string, value: string)

  datatype Element = Element(tag: string, attrs: seq<Attr>, text: string)

  /** Every element of a document, in document order. */
  type Document = seq<Element>

  /** `getElementsByTagName(tag).getLength()`. */
  function Count(d: Document, tag: string): nat {
    if |d| == 0 then 0
    else (if d[0].tag == tag then 1 else 0) + Count(d[1..], tag)
  }

  /** `getElementsByTagName(tag).item(0)`. */
  function First(d: Document, tag: string): (e: Element)
    requires Count(d, tag) > 0
    ensures e in d && e.tag == tag
  {
    if d[0].tag == tag then d[0] else First(d[1..], tag)
  }

  lemma {:induction false} CountAppend(a: Document, b: Document, tag: string)
    ensures Count(a + b, tag) == Count(a, tag) + Count(b, tag)
    decreases |a|
  {
    if |a| > 0 {
      assert (a + b)[0] == a[0];
      assert (a + b)[1..] == a[1..] + b;
      CountAppend(a[1..], b, tag);
    } else {
      assert a + b == b;
    }
  }

  lemma {:induction false} FirstAppend(a: Document, b: Document, tag: string)
    requires Count(a, tag) == 0 && Count(b, tag) > 0
    ensures Count(a + b, tag) > 0 && First(a + b, tag) == First(b, tag)
    decreases |a|
  {
    CountAppend(a, b, tag);
    if |a| > 0 {
      assert (a + b)[0] == a[0];
      assert (a + b)[1..] == a[1..] + b;
      FirstAppend(a[1..], b, tag);
    } else {
      assert a + b == b;
    }
  }

  // ---------------------------------------------------------------------------
  // Encoding: toXML
  // ---------------------------------------------------------------------------

  /** `createAndAppend`: a child element holding one text node. */
  function Child(tag: string, text: string): Element {
    Element(tag, [], text)
  }

  /** The document `toXML` builds around the given children. */
  function Envelope(t: MsgType, children: seq<Element>): Document {
    [Element(RootTag, [Attr(TypeAttr, TypeName(t))], Texts(children))] + children
  }

  /** The root's text content: its children's, concatenated. */
  function Texts(children: seq<Element>): string {
    if |children| == 0 then "" else children[0].text + Texts(children[1..])
  }

  /**
   * `toXML` (lines 225-273): a request needs a key, a put also a value; a
   * response needs exactly one of key-and-value or message. Fields a request
   * does not use are ignored.
   */
  function Encode(m: Message): (r: Result<Document, string>)
    ensures m.msgType.IsRequest() && m.key.None? ==> r == Err(NoKeyErr)
    ensures m.msgType == PutReq && m.key.Some? && m.value.None? ==> r == Err(NoValueErr)
    ensures m.msgType.IsRequest() ==> (r.Ok? <==> m.key.Some? && (m.msgType == PutReq ==> m.value.Some?))
    ensures m.msgType == Resp ==>
      (r.Ok? <==> || (m.key.Some? && m.value.Some? && m.message.None?)
                  || (m.message.Some? && m.key.None? && m.value.None?))
    ensures m.msgType == Resp && r.Err? ==> r.error == NotEnoughDataErr
    ensures r.Ok? ==> Count(r.value, RootTag) == 1
  {
    if m.msgType == Resp then
      if m.key.Some? && m.value.Some? && m.message.None? then
        Ok(EnvelopeCounted(Resp, [Child(KeyTag, m.key.value), Child(ValueTag, m.value.value)]))
      else if m.message.Some? && m.key.None? && m.value.None? then
        Ok(EnvelopeCounted(Resp, [Child(MessageTag, m.message.value)]))
      else Err(NotEnoughDataErr)
    else
      if m.key.None? then Err(NoKeyErr)
      else if m.msgType != PutReq then
        Ok(EnvelopeCounted(m.msgType, [Child(KeyTag, m.key.value)]))
      else if m.value.None? then Err(NoValueErr)
      else Ok(EnvelopeCounted(PutReq, [Child(KeyTag, m.key.value), Child(ValueTag, m.value.value)]))
  }

  /** `Envelope`, with the element counts the decoder will see. */
  function EnvelopeCounted(t: MsgType, children: seq<Element>): (d: Document)
    requires forall i | 0 <= i < |children| :: children[i].tag != RootTag
    ensures d == Envelope(t, children)
    ensures Count(d, RootTag) == 1
    ensures First(d, RootTag) == d[0]
    ensures forall tag | tag != RootTag :: Count(d, tag) == Count(children, tag)
    ensures forall tag | tag != RootTag && Count(children, tag) > 0 :: First(d, tag) == First(children, tag)
  {
    var root := [Element(RootTag, [Attr(TypeAttr, TypeName(t))], Texts(children))];
    NoRootInChildren(children);
    CountAppend(root, children, RootTag);
    forall tag | tag != RootTag
      ensures Count(root + children, tag) == Count(children, tag)
    {
      CountAppend(root, children, tag);
    }
    forall tag | tag != RootTag && Count(children, tag) > 0
      ensures First(root + children, tag) == First(children, tag)
    {
      FirstAppend(root, children, tag);
    }
    root + children
  }

  lemma {:induction false} NoRootInChildren(children: seq<Element>)
    requires forall i | 0 <= i < |children| :: children[i].tag != RootTag
    ensures Count(children, RootTag) == 0
    decreases |children|
  {
    if |children| > 0 {
      NoRootInChildren(children[1..]);
    }
  }

  // ---------------------------------------------------------------------------
  // Decoding: the socket constructor
  // ---------------------------------------------------------------------------

  /**
   * How decoding fails: a `KVException` with its text, or the
   * `NullPointerException` `parseAttribute` raises on an element without
   * attributes.
   */
  datatype DecodeError = Rejected(text: string) | NoAttributes

  /**
   * `parseAttribute` (lines 202-208): the attribute at `idx` must carry the
   * expected name; the value returned is that of attribute 0.
   */
  function ParseAttribute(node: Element, name: string, idx: nat): (r: Result<string, DecodeError>)
    ensures idx >= |node.attrs| ==> r == Err(NoAttributes)
    ensures idx < |node.attrs| && node.attrs[idx].name != name ==> r == Err(Rejected(MsgFormatErr))
    ensures r.Ok? <==> idx < |node.attrs| && node.attrs[idx].name == name
    ensures r.Ok? ==> r.value == node.attrs[0].value
  {
    if idx >= |node.attrs| then Err(NoAttributes)
    else if node.attrs[idx].name != name then Err(Rejected(MsgFormatErr))
    else Ok(node.attrs[0].value)
  }

  /** `parseElement` (lines 210-218): the text of the one element with this tag. */
  function ParseElement(d: Document, tag: string): (r: Result<string, DecodeError>)
    ensures r.Ok? <==> Count(d, tag) == 1
    ensures r.Ok? ==> r.value == First(d, tag).text
    ensures r.Err? ==> r.error == Rejected(MsgFormatErr)
  {
    if Count(d, tag) != 1 then Err(Rejected(MsgFormatErr)) else Ok(First(d, tag).text)
  }

  /**
   * `KVMessage(Socket)` once the XML has been parsed (lines 151-182): one
   * `KVMessage` element whose first attribute is a whitelisted `type`; then
   * the per-type element counts.
   */
  function Decode(d: Document): (r: Result<Message, DecodeError>)
    ensures r.Ok? ==> TypedRoot(d, r.value.msgType)
    ensures Count(d, RootTag) != 1 ==> r == Err(Rejected(MsgFormatErr))
    ensures Count(d, RootTag) == 1 && |First(d, RootTag).attrs| == 0 ==> r == Err(NoAttributes)
    ensures Count(d, RootTag) == 1 && |First(d, RootTag).attrs| > 0
            && (First(d, RootTag).attrs[0].name != TypeAttr || ParseType(First(d, RootTag).attrs[0].value).None?)
            ==> r == Err(Rejected(MsgFormatErr))
  {
    if Count(d, RootTag) != 1 then Err(Rejected(MsgFormatErr))
    else
      match ParseAttribute(First(d, RootTag), TypeAttr, 0)
      case Err(e) => Err(e)
      case Ok(name) =>
        match ParseType(name)
        case None => Err(Rejected(MsgFormatErr))
        case Some(t) =>
          if t.IsRequest() then
            match ParseElement(d, KeyTag)
            case Err(e) => Err(e)
            case Ok(k) =>
              if t == PutReq then
                match ParseElement(d, ValueTag)
                case Err(e) => Err(e)
                case Ok(v) => Ok(Message(t, Some(k), Some(v), None))
              else Ok(Message(t, Some(k), None, None))
          else if Count(d, KeyTag) == 1 && Count(d, ValueTag) == 1 && Count(d, MessageTag) == 0 then
            Ok(Message(Resp, Some(First(d, KeyTag).text), Some(First(d, ValueTag).text), None))
          else if Count(d, MessageTag) == 1 && Count(d, KeyTag) == 0 && Count(d, ValueTag) == 0 then
            Ok(Message(Resp, None, None, Some(First(d, MessageTag).text)))
          else Err(Rejected(MsgFormatErr))
  }

  /** The root test of the decoder: one `KVMessage` element, typed by its first attribute. */
  ghost predicate TypedRoot(d: Document, t: MsgType) {
    && Count(d, RootTag) == 1
    && |First(d, RootTag).attrs| > 0
    && First(d, RootTag).attrs[0].name == TypeAttr
    && ParseType(First(d, RootTag).attrs[0].value) == Some(t)
  }

  /**
   * Decoding succeeds only on a document with a typed root, and keeps that
   * type. Every other document fails: with the format error when the root is
   * missing, repeated, or not typed by a listed `type` attribute, and with
   * `NoAttributes` when the root has no attributes at all.
   */
  lemma DecodeNeedsTypedRoot(d: Document)
    ensures Decode(d).Ok? ==> TypedRoot(d, Decode(d).value.msgType)
    ensures (exists t :: TypedRoot(d, t)) || Decode(d).Err?
    ensures Count(d, RootTag) == 1 && |First(d, RootTag).attrs| == 0 ==> Decode(d) == Err(NoAttributes)
    ensures (Count(d, RootTag) != 1 || |First(d, RootTag).attrs| > 0) && !(exists t :: TypedRoot(d, t)) ==>
      Decode(d) == Err(Rejected(MsgFormatErr))
  {
  }

  /**
   * Under a typed root, a request decodes exactly when it has one `Key`
   * element and, for a put, one `Value` element; other elements are ignored.
   */
  lemma DecodeRequest(d: Document, t: MsgType)
    requires TypedRoot(d, t) && t.IsRequest()
    ensures Decode(d).Ok? <==> Count(d, KeyTag) == 1 && (t == PutReq ==> Count(d, ValueTag) == 1)
    ensures Decode(d).Err? ==> Decode(d).error == Rejected(MsgFormatErr)
    ensures Decode(d).Ok? ==> Decode(d).value == Message(t, Some(First(d, KeyTag).text),
      if t == PutReq then Some(First(d, ValueTag).text) else None, None)
  {
  }

  /**
   * Under a typed root, a response decodes exactly when its element counts
   * (Key, Value, Message) are (1, 1, 0) or (0, 0, 1), to the texts of those
   * elements.
   */
  lemma DecodeResponse(d: Document)
    requires TypedRoot(d, Resp)
    ensures Decode(d).Ok? <==>
      || (Count(d, KeyTag) == 1 && Count(d, ValueTag) == 1 && Count(d, MessageTag) == 0)
      || (Count(d, KeyTag) == 0 && Count(d, ValueTag) == 0 && Count(d, MessageTag) == 1)
    ensures Decode(d).Err? ==> Decode(d).error == Rejected(MsgFormatErr)
    ensures Decode(d).Ok? && Count(d, MessageTag) == 0 ==>
      Decode(d).value == Message(Resp, Some(First(d, KeyTag).text), Some(First(d, ValueTag).text), None)
    ensures Decode(d).Ok? && Count(d, MessageTag) == 1 ==>
      Decode(d).value == Message(Resp, None, None, Some(First(d, MessageTag).text))
  {
  }

  // ---------------------------------------------------------------------------
  // Encoder and decoder agree
  // ---------------------------------------------------------------------------

  /** The fields of `m` the encoder writes; the others it drops. */
  function Written(m: Message): Message {
    match m.msgType
    case GetReq => m.(value := None, message := None)
    case DelReq => m.(value := None, message := None)
    case PutReq => m.(message := None)
    case Resp => m
  }

  /** The encoder looks only at the fields it writes: the others change nothing. */
  lemma EncodeIgnoresUnused(m: Message)
    ensures Encode(m) == Encode(Written(m))
  {
  }

  /** Decoding what the encoder wrote gives back every field the encoder wrote. */
  lemma DecodeEncode(m: Message)
    requires Encode(m).Ok?
    ensures WellFormed(Written(m))
    ensures Decode(Encode(m).value) == Ok(Written(m))
  {
    var k := Child(KeyTag, if m.key.Some? then m.key.value else "");
    var v := Child(ValueTag, if m.value.Some? then m.value.value else "");
    var msg := Child(MessageTag, if m.message.Some? then m.message.value else "");
    ChildCounts(k, v, msg);
    TypeNameParses(m.msgType);
  }

  /** Element counts of the children lists the encoder builds. */
  lemma ChildCounts(k: Element, v: Element, msg: Element)
    requires k.tag == KeyTag && v.tag == ValueTag && msg.tag == MessageTag
    ensures Count([k], KeyTag) == 1 && Count([k], ValueTag) == 0 && Count([k], MessageTag) == 0
    ensures First([k], KeyTag) == k
    ensures Count([k, v], KeyTag) == 1 && Count([k, v], ValueTag) == 1 && Count([k, v], MessageTag) == 0
    ensures First([k, v], KeyTag) == k && First([k, v], ValueTag) == v
    ensures Count([msg], KeyTag) == 0 && Count([msg], ValueTag) == 0 && Count([msg], MessageTag) == 1
    ensures First([msg], MessageTag) == msg
  {
    assert [k, v][1..] == [v];
    assert Count([v], KeyTag) == 0 && Count([v], ValueTag) == 1 && Count([v], MessageTag) == 0;
    assert First([v], ValueTag) == v;
  }

  /** The round trip for a message with no extraneous field. */
  lemma RoundTrip(m: Message)
    requires WellFormed(m)
    ensures Encode(m).Ok?
    ensures Decode(Encode(m).value) == Ok(m)
  {
    DecodeEncode(m);
  }

  /**
   * The decoder accepts nothing the encoder would refuse: every decoded
   * message is well formed, encodes, and survives a second round trip.
   */
  lemma DecodedEncodes(d: Document)
    requires Decode(d).Ok?
    ensures WellFormed(Decode(d).value)
    ensures Encode(Decode(d).value).Ok?
    ensures Decode(Encode(Decode(d).value).value) == Decode(d)
  {
    RoundTrip(Decode(d).value);
  }

  /**
   * Every failure is reported as `new KVMessage("resp", text)`: a response
   * carrying only a message, which encodes and decodes back to itself.
   */
  lemma ErrorResponseRoundTrip(text: string)
    ensures NewWithMessage("resp", Some(text)) == Ok(Message(Resp, None, None, Some(text)))
    ensures WellFormed(Message(Resp, None, None, Some(text)))
    ensures Decode(Encode(Message(Resp, None, None, Some(text))).value) == Ok(Message(Resp, None, None, Some(text)))
  {
    RoundTrip(Message(Resp, None, None, Some(text)));
  }
}

=== FILE: kv_server.dfy ===
/**
 * The request orchestration of KVServer.java, as a sequential state machine
 * over the pair (store, cache). Each request returns a `Step`: its outcome,
 * the state afterwards and the lock events it performed, in order.
 *
 * Locks are not modelled as blocking; the trace only records the order in
 * which `put`, `get` and `del` acquire and release the store's lock and the
 * write lock of the key's cache shard. A request whose cache put runs the
 * as-written scan on a full shard of referenced entries never returns; its
 * outcome is `Hangs` and its trace ends with the locks it still holds.
 */
module KVServer {
  import opened Results
  import CacheSet
  import KVCache
  import KVStore

  const MaxKeySize: nat := 256
  const MaxValSize: nat := 256 * 1024
  const OversizedKey := "Key Error: Oversized Key"
  const UndersizedKey := "Key Error: Undersized Key"
  const OversizedValue := "Value Error: Oversized Value"
  const UndersizedValue := "Value Error: Undersized Value"
  const MsgFormat := "Message Format Incorrect"

  /** The server's two data structures. */
  datatype Server = Server(store: KVStore.Store, cache: KVCache.Cache)

  /** A lock held by a request: the store's write or read lock, or a shard's write lock. */
  datatype Lock = StoreWrite | StoreRead | CacheWrite(setId: nat)

  datatype Event = Acquire(lock: Lock) | Release(lock: Lock)

  /** `Returns` a value or a `KVException` text, or `Hangs` inside the eviction scan. */
  datatype Outcome<T> = Returns(result: Result<T, string>) | Hangs

  datatype Step<T> = Step(outcome: Outcome<T>, state: Server, trace: seq<Event>)

  /** The constructor `KVServer(numSets, maxElemsPerSet)` (lines 60-65). */
  function New(numSets: nat, cap: nat, policy: KVCache.Eviction): (s: Server)
    ensures s.store == map[]
    ensures forall hash: string -> int :: 0 < numSets && 0 < cap ==> Valid(s, hash)
    ensures forall hash: string -> int :: 0 < numSets && 0 < cap ==> Consistent(s, hash)
  {
    Server(KVStore.Empty(), KVCache.New(numSets, cap, policy))
  }

  // ---------------------------------------------------------------------------
  // Size validation
  // ---------------------------------------------------------------------------

  /**
   * `checkKeySize` (lines 170-179): a `null` key is a format error, an empty
   * one undersized and one longer than 256 characters oversized.
   */
  function CheckKey(key: Option<string>): (r: Result<string, string>)
    ensures r.Ok? <==> key.Some? && 1 <= |key.value| <= MaxKeySize
    ensures r.Ok? ==> r.value == key.value
    ensures key.None? ==> r == Err(MsgFormat)
    ensures key.Some? && |key.value| == 0 ==> r == Err(UndersizedKey)
    ensures key.Some? && |key.value| > MaxKeySize ==> r == Err(OversizedKey)
  {
    match key
    case None => Err(MsgFormat)
    case Some(k) =>
      if |k| == 0 then Err(UndersizedKey)
      else if |k| > MaxKeySize then Err(OversizedKey)
      else Ok(k)
  }

  /** `checkValueSize` (lines 181-190): the same checks with bound 262144. */
  function CheckValue(value: Option<string>): (r: Result<string, string>)
    ensures r.Ok? <==> value.Some? && 1 <= |value.value| <= MaxValSize
    ensures r.Ok? ==> r.value == value.value
    ensures value.None? ==> r == Err(MsgFormat)
    ensures value.Some? && |value.value| == 0 ==> r == Err(UndersizedValue)
    ensures value.Some? && |value.value| > MaxValSize ==> r == Err(OversizedValue)
  {
    match value
    case None => Err(MsgFormat)
    case Some(v) =>
      if |v| == 0 then Err(UndersizedValue)
      else if |v| > MaxValSize then Err(OversizedValue)
      else Ok(v)
  }

  /** The limits are inclusive: 256 and 262144 pass, 257 and 262145 do not. */
  lemma SizeBoundaries(k: string, v: string)
    ensures |k| == 256 ==> CheckKey(Some(k)) == Ok(k)
    ensures |k| == 257 ==> CheckKey(Some(k)) == Err(OversizedKey)
    ensures |v| == 262144 ==> CheckValue(Some(v)) == Ok(v)
    ensures |v| == 262145 ==> CheckValue(Some(v)) == Err(OversizedValue)
  {
  }

  // ---------------------------------------------------------------------------
  // Requests
  // ---------------------------------------------------------------------------

  predicate Valid(s: Server, hash: string -> int) {
    KVCache.Valid(s.cache, hash)
  }

  /** The shard lock guarding key `k`. */
  function ShardLock(s: Server, hash: string -> int, k: string): Lock
    requires Valid(s, hash)
  {
    CacheWrite(KVCache.SetId(hash, s.cache.numSets, k))
  }

  /**
   * `put` (lines 67-92): validate key then value; take the store's write lock,
   * then the shard's; write the store, then the cache; release in reverse.
   */
  function Put(s: Server, hash: string -> int, key: Option<string>, value: Option<string>): (r: Step<()>)
    requires Valid(s, hash)
    ensures CheckKey(key).Err? ==> r == Step(Returns(Err(CheckKey(key).error)), s, [])
    ensures CheckKey(key).Ok? && CheckValue(value).Err? ==>
      r == Step(Returns(Err(CheckValue(value).error)), s, [])
    ensures r.outcome.Returns? ==> Valid(r.state, hash)
    ensures r.outcome == Returns(Ok(())) ==>
      && key.Some? && value.Some?
      && key.value in r.state.store && r.state.store[key.value] == value.value
      && KVCache.Lookup(r.state.cache, hash, key.value) == Some(value.value)
      && forall x | x != key.value :: KVCache.Lookup(r.state.cache, hash, x) == KVCache.Lookup(s.cache, hash, x)
                                      || KVCache.Lookup(r.state.cache, hash, x) == None
    ensures CheckKey(key).Ok? && CheckValue(value).Ok? ==>
      && (r.outcome == Returns(Ok(())) || r.outcome == Hangs)
      && (r.outcome == Hangs <==>
            (s.cache.policy == KVCache.AsWritten
             && !CacheSet.CanPut(s.cache.sets[KVCache.SetId(hash, s.cache.numSets, key.value)], s.cache.cap)))
      && r.state.store == KVStore.Put(s.store, key.value, value.value)
    ensures r.outcome == Hangs ==>
      && key.Some? && r.state.cache == s.cache
      && r.trace == [Acquire(StoreWrite), Acquire(ShardLock(s, hash, key.value))]
  {
    match CheckKey(key)
    case Err(e) => Step(Returns(Err(e)), s, [])
    case Ok(k) =>
      match CheckValue(value)
      case Err(e) => Step(Returns(Err(e)), s, [])
      case Ok(v) =>
        var l := ShardLock(s, hash, k);
        var store' := KVStore.Put(s.store, k, v);
        match KVCache.Put(s.cache, hash, k, v)
        case None => Step(Hangs, Server(store', s.cache), [Acquire(StoreWrite), Acquire(l)])
        case Some(c') =>
          Step(Returns(Ok(())), Server(store', c'),
               [Acquire(StoreWrite), Acquire(l), Release(l), Release(StoreWrite)])
  }

  /**
   * `get` (lines 94-131): validate the key; take the shard's write lock; on a
   * hit return the cached value; on a miss read the store under its read lock
   * and put the value into the cache before releasing the shard.
   */
  function Get(s: Server, hash: string -> int, key: Option<string>): (r: Step<string>)
    requires Valid(s, hash)
    ensures CheckKey(key).Err? ==> r == Step(Returns(Err(CheckKey(key).error)), s, [])
    ensures r.outcome.Returns? ==> Valid(r.state, hash) && r.state.store == s.store
    ensures r.outcome.Returns? && r.outcome.result.Ok? ==>
      key.Some? && KVCache.Lookup(r.state.cache, hash, key.value) == Some(r.outcome.result.value)
    ensures CheckKey(key).Ok? && KVCache.Lookup(s.cache, hash, key.value).Some? ==>
      r.outcome == Returns(Ok(KVCache.Lookup(s.cache, hash, key.value).value))
    ensures CheckKey(key).Ok? && KVCache.Lookup(s.cache, hash, key.value).None? ==>
      && (r.outcome.Returns? ==> r.outcome.result == KVStore.Get(s.store, key.value))
      && (r.outcome == Hangs ==> s.cache.policy == KVCache.AsWritten && r.state == s)
    ensures CheckKey(key).Ok? && KVCache.Lookup(s.cache, hash, key.value).Some? ==>
      r.state.cache == KVCache.Get(s.cache, hash, key.value).1
    ensures CheckKey(key).Ok? && KVCache.Lookup(s.cache, hash, key.value).Some? ==>
      var sh := r.state.cache.sets[KVCache.SetId(hash, s.cache.numSets, key.value)];
      key.value in sh.entries && sh.entries[key.value].referenced
    ensures CheckKey(key).Ok? && r.outcome.Returns? ==>
      forall x | x != key.value :: KVCache.Lookup(r.state.cache, hash, x) == KVCache.Lookup(s.cache, hash, x)
                                   || KVCache.Lookup(r.state.cache, hash, x) == None
  {
    match CheckKey(key)
    case Err(e) => Step(Returns(Err(e)), s, [])
    case Ok(k) =>
      var l := ShardLock(s, hash, k);
      var (hit, c1) := KVCache.Get(s.cache, hash, k);
      match hit
      case Some(v) => Step(Returns(Ok(v)), Server(s.store, c1), [Acquire(l), Release(l)])
      case None =>
        var read := [Acquire(l), Acquire(StoreRead), Release(StoreRead)];
        match KVStore.Get(s.store, k)
        case Err(e) => Step(Returns(Err(e)), s, read + [Release(l)])
        case Ok(v) =>
          match KVCache.Put(s.cache, hash, k, v)
          case None => Step(Hangs, s, read)
          case Some(c2) => Step(Returns(Ok(v)), Server(s.store, c2), read + [Release(l)])
  }

  /**
   * `del` (lines 133-158): validate the key; take the store's write lock, then
   * the shard's; fail if the store lacks the key; otherwise remove it from
   * the cache, then from the store.
   */
  function Del(s: Server, hash: string -> int, key: Option<string>): (r: Step<()>)
    requires Valid(s, hash)
    ensures CheckKey(key).Err? ==> r == Step(Returns(Err(CheckKey(key).error)), s, [])
    ensures r.outcome.Returns? && Valid(r.state, hash)
    ensures CheckKey(key).Ok? && key.value !in s.store ==>
      r.outcome == Returns(Err(KVStore.NotFound(key.value))) && r.state == s
    ensures CheckKey(key).Ok? && key.value in s.store ==>
      && r.outcome == Returns(Ok(()))
      && key.value !in r.state.store
      && KVCache.Lookup(r.state.cache, hash, key.value) == None
    ensures CheckKey(key).Ok? ==>
      && (forall x | x != key.value :: (x in r.state.store <==> x in s.store)
                                       && (x in r.state.store ==> r.state.store[x] == s.store[x]))
      && (forall x | x != key.value :: KVCache.Lookup(r.state.cache, hash, x) == KVCache.Lookup(s.cache, hash, x))
  {
    match CheckKey(key)
    case Err(e) => Step(Returns(Err(e)), s, [])
    case Ok(k) =>
      var l := ShardLock(s, hash, k);
      var locked := [Acquire(StoreWrite), Acquire(l)];
      var unlocked := locked + [Release(l), Release(StoreWrite)];
      match KVStore.Get(s.store, k)
      case Err(e) => Step(Returns(Err(e)), s, unlocked)
      case Ok(_) =>
        var c' := KVCache.Del(s.cache, hash, k);
        match KVStore.Del(s.store, k)
        case Err(e) => Step(Returns(Err(e)), Server(s.store, c'), unlocked)
        case Ok(store') => Step(Returns(Ok(())), Server(store', c'), unlocked)
  }

  // ---------------------------------------------------------------------------
  // Cache/store consistency
  // ---------------------------------------------------------------------------

  /** Every cached key is in the store, with the same value. */
  ghost predicate Consistent(s: Server, hash: string -> int)
    requires Valid(s, hash)
  {
    forall k :: KVCache.Lookup(s.cache, hash, k).Some? ==>
      k in s.store && s.store[k] == KVCache.Lookup(s.cache, hash, k).value
  }

  lemma PutPreservesConsistency(s: Server, hash: string -> int, key: Option<string>, value: Option<string>)
    requires Valid(s, hash) && Consistent(s, hash)
    requires Put(s, hash, key, value).outcome.Returns?
    ensures Consistent(Put(s, hash, key, value).state, hash)
  {
  }

  lemma GetPreservesConsistency(s: Server, hash: string -> int, key: Option<string>)
    requires Valid(s, hash) && Consistent(s, hash)
    requires Get(s, hash, key).outcome.Returns?
    ensures Consistent(Get(s, hash, key).state, hash)
  {
  }

  lemma DelPreservesConsistency(s: Server, hash: string -> int, key: Option<string>)
    requires Valid(s, hash) && Consistent(s, hash)
    ensures Consistent(Del(s, hash, key).state, hash)
  {
  }

  /**
   * With the cache consistent, a get answers exactly what the store holds:
   * the stored value when the key is present, the not-found error otherwise.
   */
  lemma GetAnswersFromStore(s: Server, hash: string -> int, k: string)
    requires Valid(s, hash) && Consistent(s, hash)
    requires CheckKey(Some(k)).Ok?
    ensures Get(s, hash, Some(k)).outcome.Returns? && k in s.store ==>
      Get(s, hash, Some(k)).outcome.result == Ok(s.store[k])
    ensures Get(s, hash, Some(k)).outcome.Returns? && k !in s.store ==>
      Get(s, hash, Some(k)).outcome.result == Err(KVStore.NotFound(k))
  {
  }

  // ---------------------------------------------------------------------------
  // Scenarios
  // ---------------------------------------------------------------------------

  /** A get after a successful put of the same key hits the cache and returns the value put. */
  lemma GetAfterPut(s: Server, hash: string -> int, k: string, v: string)
    requires Valid(s, hash)
    requires CheckKey(Some(k)).Ok? && CheckValue(Some(v)).Ok?
    requires s.cache.policy == KVCache.SecondChance
             || CacheSet.CanPut(s.cache.sets[KVCache.SetId(hash, s.cache.numSets, k)], s.cache.cap)
    ensures Put(s, hash, Some(k), Some(v)).outcome == Returns(Ok(()))
    ensures Get(Put(s, hash, Some(k), Some(v)).state, hash, Some(k)).outcome == Returns(Ok(v))
  {
  }

  /** A get after a successful del of the same key fails with the store's not-found error. */
  lemma GetAfterDel(s: Server, hash: string -> int, k: string)
    requires Valid(s, hash) && CheckKey(Some(k)).Ok? && k in s.store
    ensures Del(s, hash, Some(k)).outcome == Returns(Ok(()))
    ensures Get(Del(s, hash, Some(k)).state, hash, Some(k)).outcome == Returns(Err(KVStore.NotFound(k)))
  {
  }

  /**
   * A value put survives a later put of another key: the other put may evict
   * it from the cache, but a get then reads it back from the store. Only the
   * as-written scan can make that get hang instead.
   */
  lemma PutSurvivesOtherPut(s: Server, hash: string -> int, k: string, v: string, k2: Option<string>, v2: Option<string>)
    requires Valid(s, hash)
    requires CheckKey(Some(k)).Ok? && CheckValue(Some(v)).Ok?
    requires s.cache.policy == KVCache.SecondChance
             || CacheSet.CanPut(s.cache.sets[KVCache.SetId(hash, s.cache.numSets, k)], s.cache.cap)
    ensures Put(s, hash, Some(k), Some(v)).outcome == Returns(Ok(()))
    requires k2 != Some(k)
    ensures Put(Put(s, hash, Some(k), Some(v)).state, hash, k2, v2).outcome.Returns? ==>
      var s2 := Put(Put(s, hash, Some(k), Some(v)).state, hash, k2, v2).state;
      || Get(s2, hash, Some(k)).outcome == Returns(Ok(v))
      || (Get(s2, hash, Some(k)).outcome == Hangs && s.cache.policy == KVCache.AsWritten)
  {
    var p1 := Put(s, hash, Some(k), Some(v));
    assert p1.outcome == Returns(Ok(()));
    var s1 := p1.state;
    assert Valid(s1, hash) && k in s1.store && s1.store[k] == v;
    assert KVCache.Lookup(s1.cache, hash, k) == Some(v);
    var p2 := Put(s1, hash, k2, v2);
    if p2.outcome.Returns? {
      OtherPutKeeps(s1, hash, k, v, k2, v2);
    }
  }

  /** A returning put of another key keeps `k`'s stored value, and its cached one unless it evicts `k`. */
  lemma OtherPutKeeps(s: Server, hash: string -> int, k: string, v: string, k2: Option<string>, v2: Option<string>)
    requires Valid(s, hash) && k2 != Some(k)
    requires k in s.store && s.store[k] == v && KVCache.Lookup(s.cache, hash, k) == Some(v)
    requires Put(s, hash, k2, v2).outcome.Returns?
    ensures var s2 := Put(s, hash, k2, v2).state;
      && Valid(s2, hash) && k in s2.store && s2.store[k] == v
      && (KVCache.Lookup(s2.cache, hash, k) == Some(v) || KVCache.Lookup(s2.cache, hash, k) == None)
  {
  }

  /** A value put survives a later del of another key, and stays in the cache. */
  lemma PutSurvivesOtherDel(s: Server, hash: string -> int, k: string, v: string, k2: Option<string>)
    requires Valid(s, hash)
    requires Put(s, hash, Some(k), Some(v)).outcome == Returns(Ok(()))
    requires k2 != Some(k)
    ensures var s2 := Del(Put(s, hash, Some(k), Some(v)).state, hash, k2).state;
      Get(s2, hash, Some(k)).outcome == Returns(Ok(v))
  {
  }

  /** A get that hits the cache never touches the store's lock. */
  lemma GetHitSkipsStore(s: Server, hash: string -> int, k: string)
    requires Valid(s, hash) && CheckKey(Some(k)).Ok?
    requires KVCache.Lookup(s.cache, hash, k).Some?
    ensures Get(s, hash, Some(k)).outcome == Returns(Ok(KVCache.Lookup(s.cache, hash, k).value))
    ensures forall e | e in Get(s, hash, Some(k)).trace :: e.lock == ShardLock(s, hash, k)
  {
  }

  /** A get that misses the cache and finds the key in the store caches it. */
  lemma GetMissFillsCache(s: Server, hash: string -> int, k: string)
    requires Valid(s, hash) && CheckKey(Some(k)).Ok?
    requires KVCache.Lookup(s.cache, hash, k).None? && k in s.store
    requires Get(s, hash, Some(k)).outcome.Returns?
    ensures Get(s, hash, Some(k)).outcome == Returns(Ok(s.store[k]))
    ensures KVCache.Lookup(Get(s, hash, Some(k)).state.cache, hash, k) == Some(s.store[k])
  {
  }

  /** A get that misses the cache and the store changes nothing. */
  lemma GetAbsentChangesNothing(s: Server, hash: string -> int, k: string)
    requires Valid(s, hash) && CheckKey(Some(k)).Ok?
    requires KVCache.Lookup(s.cache, hash, k).None? && k !in s.store
    ensures Get(s, hash, Some(k)).outcome == Returns(Err(KVStore.NotFound(k)))
    ensures Get(s, hash, Some(k)).state == s
  {
  }

  // ---------------------------------------------------------------------------
  // Lock discipline
  // ---------------------------------------------------------------------------

  /**
   * Replays a trace against a stack of held locks: an acquire pushes, a
   * release must name the most recently acquired lock still held. `None` when
   * a release breaks that order.
   */
  function Replay(trace: seq<Event>, held: seq<Lock>): Option<seq<Lock>>
    decreases |trace|
  {
    if |trace| == 0 then Some(held)
    else match trace[0]
      case Acquire(l) => Replay(trace[1..], held + [l])
      case Release(l) =>
        if |held| > 0 && held[|held| - 1] == l then Replay(trace[1..], held[..|held| - 1])
        else None
  }

  /** Every lock taken is released, in the reverse order of acquisition. */
  predicate Balanced(trace: seq<Event>) {
    Replay(trace, []) == Some([])
  }

  /** After replaying `prefix` from no locks, lock `a` is still held. */
  predicate Holds(prefix: seq<Event>, a: Lock) {
    Replay(prefix, []).Some? && a in Replay(prefix, []).value
  }

  /** Lock `b` is acquired at some point while lock `a` is held: the locks nest, `a` outside. */
  ghost predicate AcquiredWhileHolding(trace: seq<Event>, a: Lock, b: Lock) {
    exists j | 0 <= j < |trace| :: trace[j] == Acquire(b) && Holds(trace[..j], a)
  }

  /** The shapes of trace the requests produce, replayed. */
  lemma {:induction false} TraceShapes(a: Lock, b: Lock)
    ensures Balanced([])
    ensures Balanced([Acquire(a), Release(a)])
    ensures Balanced([Acquire(a), Acquire(b), Release(b), Release(a)])
    ensures Replay([Acquire(a), Acquire(b)], []) == Some([a, b])
    ensures Replay([Acquire(a), Acquire(b), Release(b)], []) == Some([a])
  {
    assert Replay([Release(a)], [a]) == Replay([], []);
    assert Replay([Acquire(a), Release(a)], []) == Replay([Release(a)], [a]);
    var t := [Acquire(a), Acquire(b), Release(b), Release(a)];
    assert Replay(t[3..], [a]) == Some([]);
    assert Replay(t[2..], [a, b]) == Replay(t[3..], [a]);
    assert Replay(t[1..], [a]) == Replay(t[2..], [a, b]);
    assert [] + [a] == [a] && [a] + [b] == [a, b] && [a, b][..1] == [a];
    assert Replay(t, []) == Replay(t[1..], [a]);
    var h := [Acquire(a), Acquire(b)];
    assert h[1..][1..] == [];
    assert Replay(h[1..], [a]) == Replay([], [a, b]);
    var g := [Acquire(a), Acquire(b), Release(b)];
    assert g[2..][1..] == [];
    assert Replay(g[2..], [a, b]) == Replay([], [a]);
    assert Replay(g[1..], [a]) == Replay(g[2..], [a, b]);
  }

  /**
   * Every request that returns, normally or with an error, has released all
   * its locks in reverse order; a request that hangs still holds some.
   */
  lemma LocksReleasedInReverse(s: Server, hash: string -> int, key: Option<string>, value: Option<string>)
    requires Valid(s, hash)
    ensures Put(s, hash, key, value).outcome.Returns? <==> Balanced(Put(s, hash, key, value).trace)
    ensures Get(s, hash, key).outcome.Returns? <==> Balanced(Get(s, hash, key).trace)
    ensures Balanced(Del(s, hash, key).trace)
  {
    TraceShapes(StoreWrite, StoreWrite);
    if CheckKey(key).Ok? {
      var l := ShardLock(s, hash, key.value);
      TraceShapes(StoreWrite, l);
      TraceShapes(l, StoreRead);
      var read := [Acquire(l), Acquire(StoreRead), Release(StoreRead)];
      assert read + [Release(l)] == [Acquire(l), Acquire(StoreRead), Release(StoreRead), Release(l)];
      var locked := [Acquire(StoreWrite), Acquire(l)];
      assert locked + [Release(l), Release(StoreWrite)]
          == [Acquire(StoreWrite), Acquire(l), Release(l), Release(StoreWrite)];
    }
  }

  /**
   * `put` takes the shard's lock while holding the store's write lock, never
   * the other way round, and releases the shard's first.
   */
  lemma PutLocksStoreFirst(s: Server, hash: string -> int, k: string, v: string)
    requires Valid(s, hash) && CheckKey(Some(k)).Ok? && CheckValue(Some(v)).Ok?
    ensures AcquiredWhileHolding(Put(s, hash, Some(k), Some(v)).trace, StoreWrite, ShardLock(s, hash, k))
    ensures !AcquiredWhileHolding(Put(s, hash, Some(k), Some(v)).trace, ShardLock(s, hash, k), StoreWrite)
    ensures Put(s, hash, Some(k), Some(v)).outcome.Returns? ==>
      Put(s, hash, Some(k), Some(v)).trace
        == [Acquire(StoreWrite), Acquire(ShardLock(s, hash, k)), Release(ShardLock(s, hash, k)), Release(StoreWrite)]
  {
    var t := Put(s, hash, Some(k), Some(v)).trace;
    StoreThenShard(t, StoreWrite, ShardLock(s, hash, k));
  }

  /**
   * `del` takes the shard's lock while holding the store's write lock, never
   * the other way round, and releases the shard's first.
   */
  lemma DelLocksStoreFirst(s: Server, hash: string -> int, k: string)
    requires Valid(s, hash) && CheckKey(Some(k)).Ok?
    ensures AcquiredWhileHolding(Del(s, hash, Some(k)).trace, StoreWrite, ShardLock(s, hash, k))
    ensures !AcquiredWhileHolding(Del(s, hash, Some(k)).trace, ShardLock(s, hash, k), StoreWrite)
    ensures Del(s, hash, Some(k)).trace
      == [Acquire(StoreWrite), Acquire(ShardLock(s, hash, k)), Release(ShardLock(s, hash, k)), Release(StoreWrite)]
  {
    var t := Del(s, hash, Some(k)).trace;
    StoreThenShard(t, StoreWrite, ShardLock(s, hash, k));
  }

  /**
   * On a miss, `get` takes the store's read lock while holding the shard's,
   * never the other way round: the opposite nesting to `put` and `del`.
   */
  lemma GetMissLocksShardFirst(s: Server, hash: string -> int, k: string)
    requires Valid(s, hash) && CheckKey(Some(k)).Ok?
    requires KVCache.Lookup(s.cache, hash, k).None?
    ensures AcquiredWhileHolding(Get(s, hash, Some(k)).trace, ShardLock(s, hash, k), StoreRead)
    ensures !AcquiredWhileHolding(Get(s, hash, Some(k)).trace, StoreRead, ShardLock(s, hash, k))
    ensures |Get(s, hash, Some(k)).trace| >= 3
    ensures Get(s, hash, Some(k)).trace[..3] == [Acquire(ShardLock(s, hash, k)), Acquire(StoreRead), Release(StoreRead)]
  {
    var t := Get(s, hash, Some(k)).trace;
    StoreThenShard(t, ShardLock(s, hash, k), StoreRead);
  }

  /**
   * A trace that opens by taking `a` then `b`, and never takes a lock again,
   * takes `b` inside `a` and never `a` inside `b`.
   */
  lemma {:induction false} StoreThenShard(t: seq<Event>, a: Lock, b: Lock)
    requires a != b && |t| >= 2 && t[0] == Acquire(a) && t[1] == Acquire(b)
    requires forall j | 2 <= j < |t| :: !t[j].Acquire?
    ensures AcquiredWhileHolding(t, a, b)
    ensures !AcquiredWhileHolding(t, b, a)
  {
    var h := t[..1];
    assert h == [Acquire(a)] && h[1..] == [] && [] + [a] == [a];
    assert Replay(h, []) == Replay([], [a]);
    assert t[1] == Acquire(b) && Holds(t[..1], a);
    forall j | 0 <= j < |t| && t[j] == Acquire(a)
      ensures !Holds(t[..j], b)
    {
      assert j == 0 && t[..j] == [];
    }
  }

  // ---------------------------------------------------------------------------
  // The eviction hang
  // ---------------------------------------------------------------------------

  /** With the corrected clock no request hangs. */
  lemma SecondChanceNeverHangs(s: Server, hash: string -> int, key: Option<string>, value: Option<string>)
    requires Valid(s, hash) && s.cache.policy == KVCache.SecondChance
    ensures Put(s, hash, key, value).outcome.Returns?
    ensures Get(s, hash, key).outcome.Returns?
  {
  }

  /** The one-shard, one-entry server after "a" has been put and then read. */
  function ReadOne(policy: KVCache.Eviction, hash: string -> int): Server {
    Get(Put(New(1, 1, policy), hash, Some("a"), Some("1")).state, hash, Some("a")).state
  }

  lemma ReadOneShape(policy: KVCache.Eviction, hash: string -> int)
    ensures Valid(ReadOne(policy, hash), hash)
    ensures ReadOne(policy, hash).cache.policy == policy
    ensures ReadOne(policy, hash).cache.sets[0] == CacheSet.ReadShard()
  {
    var s0 := New(1, 1, policy);
    assert Valid(s0, hash);
    assert KVCache.SetId(hash, 1, "a") == 0;
    var p := Put(s0, hash, Some("a"), Some("1"));
    assert p.state.cache.sets[0] == CacheSet.Put(CacheSet.Empty(), 1, "a", "1");
  }

  /**
   * One shard of one entry: put "a", read it, put "b". With the source's scan
   * the last put never returns and keeps both locks.
   */
  lemma ReadThenPutHangs(hash: string -> int)
    ensures Put(ReadOne(KVCache.AsWritten, hash), hash, Some("b"), Some("2")).outcome == Hangs
    ensures Put(ReadOne(KVCache.AsWritten, hash), hash, Some("b"), Some("2")).trace
         == [Acquire(StoreWrite), Acquire(CacheWrite(0))]
  {
    ReadOneShape(KVCache.AsWritten, hash);
    CacheSet.ReadShardBlocksPut();
    assert KVCache.SetId(hash, 1, "b") == 0;
  }

  /** The same requests with the corrected clock: "b" replaces "a" in the cache. */
  lemma ReadThenPutSecondChance(hash: string -> int)
    ensures Put(ReadOne(KVCache.SecondChance, hash), hash, Some("b"), Some("2")).outcome == Returns(Ok(()))
    ensures KVCache.Lookup(Put(ReadOne(KVCache.SecondChance, hash), hash, Some("b"), Some("2")).state.cache, hash, "a")
         == None
  {
    ReadOneShape(KVCache.SecondChance, hash);
    CacheSet.ReadShardBlocksPut();
    assert KVCache.SetId(hash, 1, "b") == 0;
    assert KVCache.SetId(hash, 1, "a") == 0;
  }
}

=== FILE: kv_store.dfy ===
/**
 * The backing store of KVStore.java: an unbounded map from key to value.
 * `get` and `del` of an absent key fail with the store's "does not exist"
 * text; `put` inserts or overwrites and never fails.
 */
module KVStore {
  import opened Results

  type Store = map<string, string>

  /** `resetStore`: the empty table the constructor starts from. */
  function Empty(): (s: Store)
    ensures forall k :: k !in s
  {
    map[]
  }

  /** The error text `get` and `del` throw for a missing key (lines 95 and 112). */
  function NotFound(k: string): string {
    "key \"" + k + "\" does not exist in store"
  }

  /** `put` (lines 77-86): afterwards `k` maps to `v`; every other key is as before. */
  function Put(s: Store, k: string, v: string): (r: Store)
    ensures k in r && r[k] == v
    ensures forall x | x != k :: (x in r <==> x in s) && (x in r ==> r[x] == s[x])
  {
    s[k := v]
  }

  /** `get` (lines 88-102): the mapped value, or the not-found error. */
  function Get(s: Store, k: string): (r: Result<string, string>)
    ensures r.Ok? <==> k in s
    ensures r.Ok? ==> r.value == s[k]
    ensures r.Err? ==> r.error == NotFound(k)
  {
    if k in s then Ok(s[k]) else Err(NotFound(k))
  }

  /** `del` (lines 104-117): removes exactly `k`, or fails when it is absent. */
  function Del(s: Store, k: string): (r: Result<Store, string>)
    ensures r.Ok? <==> k in s
    ensures r.Ok? ==> k !in r.value && |r.value| == |s| - 1
    ensures r.Ok? ==> forall x | x != k :: (x in r.value <==> x in s) && (x in r.value ==> r.value[x] == s[x])
    ensures r.Err? ==> r.error == NotFound(k)
  {
    if k in s then Ok(s - {k}) else Err(NotFound(k))
  }

  /** A get right after a put of the same key returns the value put. */
  lemma GetAfterPut(s: Store, k: string, v: string)
    ensures Get(Put(s, k, v), k) == Ok(v)
  {
  }

  /** A put does not change what a get of another key returns. */
  lemma GetAfterPutOther(s: Store, k: string, v: string, x: string)
    requires x != k
    ensures Get(Put(s, k, v), x) == Get(s, x)
  {
  }

  /** A second put of a key replaces the first. */
  lemma PutOverwrites(s: Store, k: string, v1: string, v2: string)
    ensures Put(Put(s, k, v1), k, v2) == Put(s, k, v2)
  {
  }

  /** After a successful del, a get of the key fails, and so does a second del. */
  lemma GetAfterDel(s: Store, k: string)
    requires k in s
    ensures Del(s, k).Ok?
    ensures Get(Del(s, k).value, k) == Err(NotFound(k))
    ensures Del(Del(s, k).value, k) == Err(NotFound(k))
  {
  }

  /** Deleting a key that was just put restores the store when the key was new. */
  lemma DelUndoesPut(s: Store, k: string, v: string)
    requires k !in s
    ensures Del(Put(s, k, v), k) == Ok(s)
  {
    assert Put(s, k, v) - {k} == s;
  }
}

=== FILE: results.dfy ===
/**
 * Failure-carrying result types shared by every module of the key-value store
 * model. The Java source signals failures with `KVException` (a checked
 * exception wrapping an error text) and absence with `null`; the model uses
 * `Result` and `Option` instead.
 */
module Results {

  /** `Some(v)` for a present value, `None` where the source returns `null`. */
  datatype Option<+T> = None | Some(value: T)

  /** `Ok(v)` for a normal return, `Err(e)` for a thrown exception. */
  datatype Result<+T, +E> = Ok(value: T) | Err(error: E)
}
